=== FILE: README.md ===
# Inode cache and path resolution of an ext2 teaching filesystem

This project models `util.c` of a small ext2 filesystem, written in Dafny. The
model covers:

- the in-memory inode cache: a fixed pool of minode slots, a free list and a
  cache list, with `enqueue`, `dequeue`, `mialloc`, `midalloc`, `iget` and `iput`;
- `tokenize`, which splits a pathname on `/`;
- the three scans over a directory's first data block: `search`, `findmyname`
  and `findino`;
- `path2inode`, which walks a pathname one component at a time.

## Modules

- **Disk** (`disk.dfy`): the disk image as a sequence of 1024-byte blocks, and
  little-endian fields.
  - The inode table arithmetic of `iget`: block `(ino-1)/8 + iblk`, record
    `(ino-1)%8`, 128-byte records.
  - The block `iput` computes instead, `WriteBackBlock` (see below).
  - Reading and writing one record of a block, and the round trip of a
    write-back followed by a load.
- **DirBlock** (`dirblock.dfy`): the packed directory records.
  - Each record holds `inode` (u32 at offset 0), `rec_len` (u16 at 4),
    `name_len` (byte at 6), and the name from offset 8.
  - The scans are recursive functions over a cursor. They read the block only
    up to the record they stop at, as the source does. Over a block whose
    records all scan cleanly, search's and findmyname's scans are each proved
    equal to a lookup over the decoded entry list (`Lookup`, `NameOf`).
  - An encoder proves that packing entries into a block and scanning the block
    gives the entries back.
- **PathTokens** (`tokens.dfy`): `Components`, the split of a pathname into its
  non-empty `/`-free runs. `Tokenize` is a strtok-style loop proved to compute it.
- **Cache** (`cache.dfy`): class `InodeCache`.
  - The pool is an array of `Minode` values.
  - `freeList` and `cacheList` are sequences of slot indices in list order, so a
    MINODE pointer is a slot index and null is `None`.
  - `Valid()` says the two lists partition the pool and no `(dev, ino)` is
    cached twice. Every operation preserves it.
- **Resolve** (`resolve.dfy`): `Path2Inode` over an `InodeCache`.
  - It returns an `Outcome` and the token array.
  - It also returns a ghost trail recording, for each component resolved, the
    state of the cache when the round began (pool, both lists, disk image), the
    slot held, and the inode number found. Each slot held after the first holds
    the inode number the step before it found.
  - Each step's state is the one the move of the step before it led to: iput of
    the slot held, then iget of the inode found (`Moves`). The final state is
    where the move of the last step leads.

## Behaviour of the code as written

The model does what the code does, including where the code differs from its own
comments or from what its callers would expect:

- **Cache hits** bump `cacheCount` without moving the node (`util.c:123`), while
  `enqueue` orders the list by `cacheCount` (`util.c:92-103`). The cache list is
  therefore not sorted in general. Only insertion by `enqueue` keeps a sorted
  list sorted (`SortedInsert`).
- **Eviction** (`util.c:145-152`): the comment at `util.c:147` asks for the idle
  node with the smallest `cacheCount`. The loop takes the first cache-list node
  whose `shareCount` is 0. As the list is not sorted, the two can differ.
  - It does not load the new inode's record, as the miss path does at
    `util.c:137-140`. The slot keeps the record of the inode it held before.
  - It does not write a dirty victim back.
  - It leaves the node where it is in the list.
  - When no node is idle, the loop at `util.c:147-148` follows a null `next`.
    Here `iget` returns `None`.
- **`iput`** (`util.c:169`) adds `(ino-1)/8` to `mip->INODE.i_block`, where
  `iget` adds `iblk` (`util.c:135`).
  - `i_block` is an array of 32-bit words, so the sum is pointer arithmetic:
    each step moves 4 bytes. The block written is
    `WriteBackBlock(addr, ino) = addr + 4*((ino-1)/8)`, where `addr` is the
    address of the slot's `i_block` array as an integer. The model gives each
    slot that address as `iblockAddr[slot]`.
  - The comment at `util.c:183-185` says a modified inode's last user must write
    it back to disk. `WriteBackStride` shows that no address puts both inode
    `ino` and inode `ino+8` at their inode table blocks, so the write-back does
    not reach the table in general.
  - The write-back round trip is proved for the case where `WriteBackBlock`
    equals the inode's table block.
  - `iput` never clears `modified`; `midalloc` (`util.c:178`) only zeroes
    `shareCount`.
- **`path2inode`**
  - On failure it returns null without releasing the directory it holds
    (`util.c:233-238`). The `NotADirectory` and `NotFound` outcomes carry that
    slot.
  - On its first step it releases root or cwd, which it never acquired
    (`util.c:240`).
  - `search` reads through the global `dev` (`util.c:197`). So does the model:
    one disk image, and the mounted device passed to `Path2Inode`.
- **`S_ISDIR`** is the test `(i_mode & 0xF000) == 0x4000` on the 16-bit mode
  field.

## Model

| member | source | states |
|---|---|---|
| Cache.Dequeue | util.c:106-112 | null exactly for an empty list; otherwise the old head, and the list becomes its tail |
| Cache.InodeCache.Enqueue | util.c:82-104 | a node already linked is refused and the list is unchanged; otherwise the node is linked at InsertPos, with the old nodes in order around it, and it becomes the head exactly when the list is empty or the head's count exceeds its own |
| Cache.InsertPos | util.c:92-103 | the insertion point follows every node whose cacheCount is at most the new node's, and precedes a node whose cacheCount exceeds it |
| Cache.SortedInsert | util.c:92-103 | inserting at InsertPos into a list sorted by cacheCount gives a sorted list |
| Cache.InodeCache.Mialloc | util.c:44-56 | claims the lowest-indexed slot with shareCount 0 and sets that count to 1, changing nothing else; with no such slot, returns null and changes nothing |
| Cache.InodeCache.Midalloc | util.c:58-61 | sets the slot's shareCount to 0 and changes nothing else |
| Cache.InodeCache.Find | util.c:116-128 | the scan of the cache list stops at the first node holding (dev, ino): every node before it holds another identity. It runs to the end exactly when no node holds it |
| Cache.InodeCache.Iget | util.c:114-153 | hit: the cached node, the only one on the cache list holding (dev, ino), is returned with both counts increased by one, and nothing else changes. Miss with a free slot: the free head gets identity (dev, ino), counts 1, modified cleared and the inode table record, is removed from the free list and is linked into the cache list at InsertPos; a cache list sorted by cacheCount stays sorted. Empty free list: the first idle cache-list node takes the identity and fresh counts but keeps its record and place, or the result is None. The disk is never written. A returned slot is on the cache list and holds (dev, ino). Valid() is preserved |
| Cache.InodeCache.Admit | util.c:130-144 | the free-list path of iget, as above, preserving Valid() and keeping a cache list sorted by cacheCount sorted |
| Cache.InodeCache.Reclaim | util.c:145-152 | the eviction path of iget: the node at FirstIdle is renamed in place, or None when every node is held, preserving Valid() |
| Cache.FirstIdle | util.c:146-148 | the first cache-list position whose node has shareCount 0, every earlier node being held |
| Cache.WritesBack | util.c:163-166 | iput goes past both early returns exactly when the node is modified and the caller was its last holder (shareCount at most 1 before the decrement) |
| Cache.Acquired | util.c:123-124 | a hit keeps the minode's identity, record and modified flag, and raises shareCount and cacheCount by one |
| Cache.Released | util.c:163-178 | iput keeps the identity, record, modified flag and cacheCount; shareCount drops by one unless the node is written back, where it becomes 0 (the drop reached 0 or less); from a held node it stays non-negative |
| Cache.InodeCache.Iput | util.c:155-187 | null changes nothing. Otherwise shareCount drops by one. When it drops to 0 or below on a modified node, the record is written to record (ino-1)%8 of block iblockAddr + 4*((ino-1)/8), and shareCount is set to 0. Otherwise no block is written. Both lists stay as they were. When that block is the inode's table block, loading the inode back yields the record written |
| Cache.InodeCache.constructor | util.c:7-9 | a pool of n slots, each with both counts 0 and modified cleared, all on the free list, with an empty cache list, satisfying Valid() |
| Cache.SameIdentityKeeps | util.c:163-178 | changing a slot's counts or record but not its identity keeps the lists a partition with unique identities |
| Cache.RenameKeeps | util.c:149-150 | renaming a cache-list node to an identity not cached keeps the partition and uniqueness |
| Cache.AdmitKeeps | util.c:130-143 | moving the free head, with an identity not cached, into the cache list at any position keeps the partition and uniqueness |
| Cache.AdmitSorted | util.c:142 | giving a slot off a sorted cache list new contents and linking it at InsertPos gives a list that is still sorted by cacheCount |
| Cache.InsertedKeepsLists | util.c:142 | moving the free head into the cache list keeps both lists duplicate-free and disjoint, and loses no slot |
| Cache.InsertedKeepsKeys | util.c:142 | linking a slot with an identity not cached keeps identities unique on the cache list |
| Disk.Mode | util.c:232 | i_mode is the 16-bit little-endian value of bytes 0 and 1 of the inode record |
| Disk.Block0 | util.c:197 | i_block[0] is the 32-bit little-endian value of bytes 40 to 43 of the inode record |
| Disk.ReadInode | util.c:139 | record k of a block, `(INODE *)buf + k`, is the 128 bytes from byte 128*k |
| Disk.InodeBlock | util.c:135 | the block of inode ino is the inode table start plus the index of the group of eight inodes ino-1 falls in |
| Disk.WriteBackBlock | util.c:169 | iput's block is the address plus 4 per group of eight inodes: a multiple of 4 on, whose quarter is the group ino-1 falls in |
| Disk.LoadInode | util.c:135-140 | each byte of the record loaded is the byte at the inode's offset within its table block |
| Disk.StoreInode | util.c:169-177 | the record stored reads back from its block at its offset, the other records of that block and the other blocks are unchanged |
| Disk.IsDir | util.c:232 | a directory is an inode whose mode's top four bits are those of 0x4000 |
| Disk.InodeOffset | util.c:136 | the record index within the block is in 0..7 |
| Disk.InodeLocationDetermines | util.c:135-136 | block and offset together identify exactly one inode number |
| Disk.InodeBlockMonotonic | util.c:135 | a larger inode number never lies in an earlier block |
| Disk.WriteBackStride | util.c:169 | eight inode numbers on, iput's block moves by 4 while the table block moves by 1, so for no address are both inodes written to their table blocks |
| Disk.WriteInode | util.c:174-176 | the record just stored into a block reads back unchanged |
| Disk.WriteInodeOthers | util.c:174-177 | storing one record leaves the other seven records of the block unchanged |
| Disk.LoadAfterStore | util.c:169-177 | after a write-back to the inode's table location, loading that inode gives the record written and every other inode keeps its record |
| DirBlock.RecIno | util.c:206-210 | dp->inode is the 32-bit little-endian value of bytes 0 to 3 of the record |
| DirBlock.RecLen | util.c:212 | dp->rec_len is the 16-bit little-endian value of bytes 4 and 5 of the record |
| DirBlock.RecName | util.c:203-204 | the name compared is at most name_len (byte 6) characters, each the non-NUL byte at its position from byte 8, and stops early only at a NUL |
| DirBlock.Entries | util.c:202-214 | the records the loop visits from a cursor: none exactly when the cursor is at or past the end, and otherwise no more than the bytes left, each visit advancing at least one byte |
| DirBlock.CName | util.c:203-204 | the name compared is the stored name bytes up to the first NUL byte: each character is the byte at its position and is not NUL, and a name shorter than name_len stops at a NUL |
| DirBlock.EntriesStep | util.c:212-213 | the scan visits the record at the cursor, then continues rec_len bytes further |
| DirBlock.Lookup | util.c:202-216 | the inode number of the first entry with the name, or 0 when no entry has it |
| DirBlock.SearchFrom | util.c:202-214 | the scan loop of search from a cursor reads only up to the matching record, and over records that all scan cleanly computes Lookup |
| DirBlock.ScanSearchOk | util.c:202-214 | a block whose records all scan cleanly can be read by search for any name |
| DirBlock.Search | util.c:189-217 | search of the directory's first data block, read up to the match, is Lookup over its decoded records when they all scan cleanly |
| DirBlock.NameOf | util.c:260-273 | the name of the first entry with the inode number, or None when no entry has it |
| DirBlock.FindMyNameFrom | util.c:260-271 | the scan loop of findmyname from a cursor reads only up to the matching record, and over records that all scan cleanly computes NameOf |
| DirBlock.ScanFindMyNameOk | util.c:260-271 | a block whose records all scan cleanly can be read by findmyname for any inode number |
| DirBlock.FindMyName | util.c:247-274 | the return value is myino when a name is found and 0 otherwise; the name written is NameOf over the block's records when they all scan cleanly |
| DirBlock.NameOfLookup | util.c:247-274 | with distinct inode numbers, findmyname of the inode search found gives the name searched |
| DirBlock.LookupNameOf | util.c:189-217 | with distinct names, search for the name findmyname found gives the inode number |
| DirBlock.FindIno | util.c:276-295 | in a well-formed block with two or more records, *myino is the first record's inode and the result the second's |
| DirBlock.NameBytes | util.c:203-204 | a stored name without NUL bytes is copied back unchanged |
| DirBlock.DecodeFirst | util.c:203-212 | an encoded record decodes to its inode, rec_len and name |
| DirBlock.DecodeCons | util.c:202-214 | a record packed in front of a block that scans cleanly is read first, then the block's records |
| DirBlock.DecodeEncode | util.c:199-214 | scanning a block of packed records yields exactly the records packed, in order |
| DirBlock.EtcBinDecodes | util.c:199-214 | the example block of "etc" (inode 5) and "bin" (inode 9) is one block long, scans cleanly and decodes to those two entries |
| DirBlock.MatchBeforeBadRecord | util.c:202-271 | in a block whose record after the match "a" (inode 5) has rec_len 0, the block does not scan cleanly, yet search finds 5 and findmyname names inode 5 "a" |
| DirBlock.EtcBinExample | util.c:189-274 | in a block holding "etc" (inode 5) and "bin" (inode 9), search finds 9 for "bin" and 0 for "usr", and findmyname names inode 5 "etc" |
| PathTokens.NameLength | util.c:71-75 | the leading run without '/' ends at the first '/' or at the end |
| PathTokens.Components | util.c:71-76 | every token is non-empty and free of '/' |
| PathTokens.Tokenize | util.c:63-80 | the count returned is the number of tokens, and the tokens are the pathname's components in order |
| PathTokens.NoComponents | util.c:71-79 | the count is 0 exactly for a pathname that is empty or all slashes |
| PathTokens.ComponentsKeepCharacters | util.c:71-76 | the tokens, put together, hold every character of the pathname except the slashes, in order |
| PathTokens.SplitJoin | util.c:71-76 | joining non-empty, slash-free names with '/' and tokenizing gives the names back |
| Resolve.Start | util.c:223-226 | the walk starts at root for a pathname beginning with '/', else at cwd |
| Resolve.Advance | util.c:240-241 | iput of the slot held, stated as Iput's effect on pool and disk, then iget of (dev, ino) from that state, stated as Iget's effect (Acquires) with the record read from the disk after the write-back; together, the move from the old state to the new one is Moves. Valid() is kept, and a result is a cached slot holding (dev, ino) |
| Resolve.Visit | util.c:232-241 | the step records the state of the cache and the slot held when the round began. A non-directory stops with NotADirectory, and a failed search stops with NotFound; a directory whose block search cannot read, or whose entry is numbered beyond ninodes, or whose slot iput would write back outside the image, stops with Undefined. All three change nothing and keep the slot held. Otherwise the entry found is resolved, and the new state is the Moves of iput and iget from the recorded one: the entry's slot becomes the slot held, or the walk stops with CacheExhausted after that resolved step |
| Resolve.Round | util.c:230-242 | one turn of the loop keeps the walk so far a chained walk whose steps follow each other's moves and whose last move ends in the current state; where it stops, the outcome is reported and the final state is where the last move led |
| Resolve.WalkOn | util.c:236-241 | a walk extended by a step that resolved the next component, begun in the state and slot the last move led to, is still a walk whose steps follow each other's moves, and ends where the new step's move leads |
| Resolve.WalkedAt | util.c:230-242 | step k of a walk searched for component k and found a nonzero inode number |
| Resolve.WalkedPrefix | util.c:230-242 | every prefix of a walk is a walk |
| Resolve.ChainedAt | util.c:240-241 | the slot held at step k > 0 of a walk holds, on the mounted device, the inode number step k-1 found |
| Resolve.MovedAt | util.c:240-241 | the state and slot of step k > 0 are where iput of step k-1's slot and iget of the inode it found led (Moves) |
| Resolve.Walk | util.c:230-244 | every step taken resolved its component in the slot held: the first in the start slot from the initial state, each later one in the slot holding the inode number the step before found, on the mounted device, in the state the previous move led to. With no step nothing changes; otherwise the final state is where the last step's move led, with the slot kept. The outcome is reported as in Path2Inode |
| Resolve.Path2Inode | util.c:219-245 | the token array is the components. Each component resolved was found by search in the slot held: the first in root or cwd in the initial state, each later one in the slot holding the inode number the component before resolved to, in the state that iput and iget of the step before led to. A found slot is cached and holds the last inode found. No components: the start slot is returned and nothing changes. NotADirectory names a component whose directory is not one, NotFound one that search does not find, and Undefined one where search cannot read the block, finds an inode beyond ninodes, or iput would write outside the image (Beyond); all three report the slot still held. So a walk over directories whose blocks search can read, finding every name with an inode number within ninodes, moves on through every component. The final state is where the last move led, and is the initial state when no component was resolved |

## Left out

- get_block and put_block (`util.c:30-42`) are not part of this model. The disk
  is the `disk` field of the cache, a sequence of blocks indexed by block
  number. Reads and writes on `fd` are reads and updates of that sequence.
- All `printf` tracing is left out.
- `type.h` and `main.c` are not part of this model. Their values are fixed or
  passed in as follows:
  - The record layouts of ext2 are assumed: 1024-byte blocks, 128-byte inode
    records with `i_mode` at offset 0 and `i_block[0]` at offset 40, and
    ext2_dir_entry_2 directory records.
  - NMINODE is the pool size given to the constructor.
  - `root`, `running->cwd` and the global `dev` are parameters of `Path2Inode`.
  - `iblk` and `ninodes` are fields fixed at construction.
- The process table, `oft`, `requests` and `hits` are left out. The logic of
  `util.c` does not use them.
- The `strtok` static state and the `gline`/`name[64]` globals are left out:
  `Tokenize` returns the token sequence. Its two requires are the sizes of those
  buffers.
- Outstanding handles are not tracked. The count of outstanding holders that
  `shareCount` is meant to equal is therefore not stated; each call's effect on
  `shareCount` is.
- Cache.InodeCache.Iget: `shareCount` and `cacheCount` are unbounded integers,
  so the wrap-around of a C `int` is not modelled.
- Cache.InodeCache.Iget: requires `1 <= ino <= ninodes`, so that the miss path
  reads a block of the image. On a hit the source reads no block, and
  `path2inode` may pass any number found in a directory.
- Cache.InodeCache.Iput: requires that a write-back block lies in the image.
  The source would pass any block number to put_block.
- Resolve.Path2Inode: stops with `Undefined` in the cases below, and only
  there (`Beyond`). In some of them the source's behaviour is undefined or never
  ends; in others the source goes on, and the model does not say what it then
  does:
  - a directory block outside the image (the source reads a buffer get_block
    did not fill);
  - a record reached before the match whose header or name runs past the
    block end, or which, not being the match, has a zero `rec_len`: the source
    reads past its buffer or loops forever. Records after the match are not
    read;
  - an inode number beyond `ninodes`, even when it would be a cache hit or its
    block lies inside the image, where the source goes on;
  - a write-back block outside the image.
- Resolve.Path2Inode: stops with `CacheExhausted` where iget's eviction scan
  would dereference null.
- Cache.InodeCache.Iput: `iblockAddr` is the `i_block` address already
  converted to `int`. The truncation of a 64-bit address to a 32-bit `int`,
  and any wrap-around of the sum, are not modelled.
- DirBlock.Search: requires every record up to the match, the match included,
  to lie in the block, taking each header as 8 bytes, where the source reads
  only the first 7 bytes of a header. `Path2Inode` checks this before it
  searches. The equality with `Lookup` is stated only for blocks whose records
  all scan cleanly.
- DirBlock.FindMyName: requires the 8-byte header of every record up to the
  match, and the name of the match, to lie in the block, where the source reads
  only the first 6 bytes of a record it passes over. The equality with `NameOf`
  is stated only for blocks whose records all scan cleanly.
- PathTokens.Tokenize: the pathname is a Dafny string. Each character stands
  for one non-NUL byte of the C string, so a NUL or a character above 255 is
  not modelled; a component holding one can never equal a stored name
  (`CName` yields only non-NUL characters below 256).
- DirBlock.FindIno: requires the second record's inode field to lie inside the
  block, since the source reads it wherever the first `rec_len` points. Its
  ensures speaks of blocks whose records scan cleanly.
- Directories larger than one block are left out, as in the source, which reads
  only `i_block[0]`.

=== FILE: cache.dfy ===
/**
 * The in-memory inode cache: a fixed pool of minode slots, a free list and a cache
 * list. The source links minodes through their `next` pointers; here each list is
 * the sequence of the pool indices it links, in list order, so `enqueue` and
 * `dequeue` rewrite a sequence of slot indices, and a MINODE pointer is a slot index
 * (null is `None`).
 */
module Cache {

  import opened Wrappers
  import opened Disk

  /** struct minode, without its `next` link. */
  datatype Minode = Minode(
    dev: int,
    ino: int,
    shareCount: int,
    cacheCount: int,
    modified: bool,
    inode: InodeRec)

  /** Every index in `list` names one of the `n` pool slots. */
  predicate InPool(list: seq<nat>, n: nat)
  {
    forall i | 0 <= i < |list| :: list[i] < n
  }

  /** No slot is linked twice. */
  predicate NoDup(list: seq<nat>)
  {
    forall i, j | 0 <= i < j < |list| :: list[i] != list[j]
  }

  /** The list is ordered by ascending cacheCount. */
  predicate SortedByCount(p: seq<Minode>, list: seq<nat>)
    requires InPool(list, |p|)
  {
    forall i, j | 0 <= i < j < |list| :: p[list[i]].cacheCount <= p[list[j]].cacheCount
  }

  /** Among the slots of `list`, at most one holds any (dev, ino) identity. */
  predicate UniqueKeys(p: seq<Minode>, list: seq<nat>)
    requires InPool(list, |p|)
  {
    forall i, j | 0 <= i < j < |list| :: !(p[list[i]].dev == p[list[j]].dev && p[list[i]].ino == p[list[j]].ino)
  }

  /** Some slot of `list` holds identity (dev, ino). */
  predicate KeyCached(p: seq<Minode>, list: seq<nat>, dev: int, ino: int)
    requires InPool(list, |p|)
  {
    exists i | 0 <= i < |list| :: p[list[i]].dev == dev && p[list[i]].ino == ino
  }

  /**
   * Where a node with count c goes in `list`: after the longest prefix of nodes whose
   * counts are at most c, so in front of the first node whose count exceeds c.
   */
  function InsertPos(p: seq<Minode>, list: seq<nat>, c: int): (k: nat)
    requires InPool(list, |p|)
    ensures k <= |list|
    ensures forall j | 0 <= j < k :: p[list[j]].cacheCount <= c
    ensures k < |list| ==> c < p[list[k]].cacheCount
  {
    if list == [] || c < p[list[0]].cacheCount then 0
    else
      var k := 1 + InsertPos(p, list[1..], c);
      assert forall j | 1 <= j < k :: list[j] == list[1..][j - 1];
      k
  }

  /** The two properties of InsertPos determine it. */
  lemma InsertPosUnique(p: seq<Minode>, list: seq<nat>, c: int, k: nat)
    requires InPool(list, |p|) && k <= |list|
    requires forall j | 0 <= j < k :: p[list[j]].cacheCount <= c
    requires k < |list| ==> c < p[list[k]].cacheCount
    ensures k == InsertPos(p, list, c)
  {
  }

  /** The element at position i of a list after inserting s at position k. */
  lemma InsertedAt(list: seq<nat>, k: nat, s: nat, i: nat)
    requires k <= |list| && i <= |list|
    ensures (list[..k] + [s] + list[k..])[i] == if i < k then list[i] else if i == k then s else list[i - 1]
  {
  }

  /** Inserting at InsertPos keeps a count-ordered list ordered. */
  lemma SortedInsert(p: seq<Minode>, list: seq<nat>, s: nat)
    requires InPool(list, |p|) && s < |p| && SortedByCount(p, list)
    ensures var k := InsertPos(p, list, p[s].cacheCount);
            var list' := list[..k] + [s] + list[k..];
            InPool(list', |p|) && SortedByCount(p, list')
  {
    var c := p[s].cacheCount;
    var k := InsertPos(p, list, c);
    var list' := list[..k] + [s] + list[k..];
    forall i | 0 <= i < |list'|
      ensures list'[i] < |p|
    {
      InsertedAt(list, k, s, i);
    }
    forall i, j | 0 <= i < j < |list'|
      ensures p[list'[i]].cacheCount <= p[list'[j]].cacheCount
    {
      InsertedAt(list, k, s, i);
      InsertedAt(list, k, s, j);
      if i < k && k < j {
        assert p[list[i]].cacheCount <= c < p[list[k]].cacheCount <= p[list[j - 1]].cacheCount;
      } else if i == k {
        assert c < p[list[k]].cacheCount <= p[list[j - 1]].cacheCount;
      }
    }
  }

  /** Index of the first node of `list` with shareCount == 0, or |list| if there is none. */
  function FirstIdle(p: seq<Minode>, list: seq<nat>): (k: nat)
    requires InPool(list, |p|)
    ensures k <= |list|
    ensures forall j | 0 <= j < k :: p[list[j]].shareCount != 0
    ensures k < |list| ==> p[list[k]].shareCount == 0
  {
    if list == [] || p[list[0]].shareCount == 0 then 0
    else
      var k := 1 + FirstIdle(p, list[1..]);
      assert forall j | 1 <= j < k :: list[j] == list[1..][j - 1];
      k
  }

  /** A slot after a cache hit: one more holder, one more use. */
  function Acquired(m: Minode): (m': Minode)
    ensures m'.dev == m.dev && m'.ino == m.ino && m'.inode == m.inode && m'.modified == m.modified
    ensures m'.shareCount == m.shareCount + 1 && m'.cacheCount == m.cacheCount + 1
  {
    m.(shareCount := m.shareCount + 1, cacheCount := m.cacheCount + 1)
  }

  /** iput writes the record back when the decremented count is not positive and the node is modified. */
  predicate WritesBack(m: Minode)
    // neither early return of iput is taken: the last holder releases a modified node
    ensures WritesBack(m) <==> m.shareCount <= 1 && m.modified
  {
    m.shareCount - 1 <= 0 && m.modified
  }

  /**
   * The free list and the cache list together link every slot of the pool exactly
   * once, and no identity is held by two slots of the cache list.
   */
  ghost predicate Partition(p: seq<Minode>, free: seq<nat>, cache: seq<nat>)
  {
    && InPool(free, |p|) && InPool(cache, |p|)
    && NoDup(free) && NoDup(cache)
    && (forall i, j | 0 <= i < |free| && 0 <= j < |cache| :: free[i] != cache[j])
    && (forall s | 0 <= s < |p| :: s in free || s in cache)
    && UniqueKeys(p, cache)
  }

  /** The slot after iput: one holder fewer, or shareCount 0 once written back. */
  function Released(m: Minode): (m': Minode)
    ensures m'.dev == m.dev && m'.ino == m.ino && m'.inode == m.inode && m'.modified == m.modified
    ensures m'.cacheCount == m.cacheCount
    // one holder fewer, never fewer than none once written back
    ensures !WritesBack(m) ==> m'.shareCount == m.shareCount - 1
    ensures WritesBack(m) ==> m'.shareCount == 0 && m.shareCount <= 1
    // a held slot never drops below zero holders
    ensures m.shareCount >= 1 ==> m'.shareCount >= 0
  {
    if WritesBack(m) then m.(shareCount := 0) else m.(shareCount := m.shareCount - 1)
  }

  /**
   * iget(dev, ino) takes pool `p` with lists `free` and `cache` to `p'`, `free'` and
   * `cache'` and returns `r`; `rec` is the inode table's record for ino. A hit returns
   * the cache-list node holding (dev, ino), the only one there, and bumps both of its counts. A miss pops the free head, gives it the identity,
   * fresh counts, modified cleared and `rec`, and links it at InsertPos. With no free
   * slot the first idle node of the cache list takes the identity, fresh counts and
   * modified cleared, but keeps its record and its place; with none idle, None.
   */
  ghost predicate Acquires(p: seq<Minode>, free: seq<nat>, cache: seq<nat>,
                           p': seq<Minode>, free': seq<nat>, cache': seq<nat>,
                           rec: InodeRec, dev: int, ino: int, r: Option<nat>)
    requires InPool(free, |p|) && InPool(cache, |p|)
  {
    && (KeyCached(p, cache, dev, ino) ==>
          && r.Some? && r.value in cache
          && p[r.value].dev == dev && p[r.value].ino == ino
          && (forall j | 0 <= j < |cache| && p[cache[j]].dev == dev && p[cache[j]].ino == ino :: cache[j] == r.value)
          && free' == free && cache' == cache
          && p' == p[r.value := Acquired(p[r.value])])
    && (!KeyCached(p, cache, dev, ino) && free != [] ==>
          && r == Some(free[0])
          && free' == free[1..]
          && p' == p[free[0] := Minode(dev, ino, 1, 1, false, rec)]
          && (var k := InsertPos(p', cache, 1); cache' == cache[..k] + [free[0]] + cache[k..]))
    && (!KeyCached(p, cache, dev, ino) && free == [] ==>
          var k := FirstIdle(p, cache);
          && free' == free && cache' == cache
          && (k < |cache| ==>
                && r == Some(cache[k])
                && p' == p[cache[k] := p[cache[k]].(dev := dev, ino := ino, shareCount := 1, cacheCount := 1, modified := false)])
          && (k == |cache| ==> r == None && p' == p))
  }

  /** dequeue(&list): pop the head, or return null for an empty list. */
  method Dequeue(list: seq<nat>) returns (mip: Option<nat>, rest: seq<nat>)
    ensures mip.None? <==> list == []
    ensures mip.None? ==> rest == list
    ensures mip.Some? ==> list == [mip.value] + rest
  {
    if list == [] {
      mip, rest := None, list;
    } else {
      mip, rest := Some(list[0]), list[1..];
    }
  }

  class InodeCache {
    /** minode[NMINODE]: the pool; its size is fixed when the cache is created. */
    const pool: array<Minode>
    /** freeList: slots that have never been given an identity. */
    var freeList: seq<nat>
    /** cacheList: slots holding an inode. */
    var cacheList: seq<nat>
    /** The disk image read and written by get_block/put_block. */
    var disk: seq<Block>
    /** iblk: first block of the inode table. */
    const iblk: int
    /** ninodes: number of inodes in the inode table. */
    const ninodes: int
    /**
     * For each slot, the address of its `INODE.i_block` array as an int: iput
     * computes its write-back block from it (WriteBackBlock) where iget uses iblk.
     */
    const iblockAddr: seq<int>

    ghost predicate Valid()
      reads this, pool
    {
      && |iblockAddr| == pool.Length
      && 0 <= iblk
      && (ninodes >= 1 ==> InodeBlock(ninodes, iblk) < |disk|)
      && Partition(pool[..], freeList, cacheList)
    }

    /** A pool of n slots, all on the free list, over a disk image whose inode table starts at iblk0. */
    constructor (n: nat, disk0: seq<Block>, iblk0: int, ninodes0: int, addrs: seq<int>)
      requires |addrs| == n && 0 <= iblk0
      requires ninodes0 >= 1 ==> InodeBlock(ninodes0, iblk0) < |disk0|
      ensures Valid() && fresh(pool)
      ensures pool.Length == n && |freeList| == n && cacheList == []
      ensures disk == disk0 && iblk == iblk0 && ninodes == ninodes0 && iblockAddr == addrs
      ensures forall s | 0 <= s < n ::
                pool[s].shareCount == 0 && pool[s].cacheCount == 0 && !pool[s].modified
    {
      pool := new Minode[n](_ => Minode(0, 0, 0, 0, false, seq(INODE_SIZE, _ => 0)));
      var all := seq(n, i requires 0 <= i => i as nat);
      forall s | 0 <= s < n
        ensures s in all
      {
        assert all[s] == s;
      }
      freeList := all;
      cacheList := [];
      disk, iblk, ninodes, iblockAddr := disk0, iblk0, ninodes0, addrs;
    }

    /**
     * enqueue(list, mip): refuse a node already linked; otherwise link it in front of
     * the first node whose cacheCount exceeds its own.
     */
    method Enqueue(list: seq<nat>, mip: nat) returns (r: Option<nat>, list': seq<nat>, pos: nat)
      requires InPool(list, pool.Length) && mip < pool.Length
      ensures mip in list ==> r == None && list' == list
      ensures mip !in list ==>
                && r == Some(mip)
                && pos == InsertPos(pool[..], list, pool[mip].cacheCount)
                && list' == list[..pos] + [mip] + list[pos..]
      // mip becomes the head exactly when the list is empty or its head counts more.
      ensures mip !in list ==> (pos == 0 <==> list == [] || pool[mip].cacheCount < pool[list[0]].cacheCount)
    {
      var i := 0;
      while i < |list|
        invariant 0 <= i <= |list|
        invariant mip !in list[..i]
      {
        if list[i] == mip {
          return None, list, 0;
        }
        assert list[..i + 1] == list[..i] + [list[i]];
        i := i + 1;
      }
      assert list[..i] == list;
      var c := pool[mip].cacheCount;
      if list == [] || c < pool[list[0]].cacheCount {
        pos := 0;
        InsertPosUnique(pool[..], list, c, pos);
        return Some(mip), [mip] + list, pos;
      }
      var m := 0;
      while m + 1 < |list| && c >= pool[list[m + 1]].cacheCount
        invariant 0 <= m < |list|
        invariant forall j | 0 <= j <= m :: pool[list[j]].cacheCount <= c
      {
        m := m + 1;
      }
      pos := m + 1;
      InsertPosUnique(pool[..], list, c, pos);
      r, list' := Some(mip), list[..pos] + [mip] + list[pos..];
    }

    /** mialloc(): claim the lowest-numbered slot whose shareCount is 0. */
    method Mialloc() returns (r: Option<nat>)
      requires Valid()
      modifies pool
      ensures Valid()
      ensures r.None? ==> pool[..] == old(pool[..]) && forall s | 0 <= s < pool.Length :: pool[s].shareCount != 0
      ensures r.Some? ==>
                && r.value < pool.Length && old(pool[r.value]).shareCount == 0
                && (forall s | 0 <= s < r.value :: pool[s].shareCount != 0)
                && pool[..] == old(pool[..])[r.value := old(pool[r.value]).(shareCount := 1)]
    {
      var i := 0;
      while i < pool.Length
        invariant 0 <= i <= pool.Length
        invariant forall s | 0 <= s < i :: pool[s].shareCount != 0
      {
        if pool[i].shareCount == 0 {
          var m := pool[i].(shareCount := 1);
          pool[i] := m;
          assert pool[..] == old(pool[..])[i := m];
          SameIdentityKeeps(old(pool[..]), freeList, cacheList, i, m);
          return Some(i);
        }
        i := i + 1;
      }
      return None;
    }

    /** midalloc(mip): set the slot's shareCount to 0. */
    method Midalloc(mip: nat)
      requires Valid() && mip < pool.Length
      modifies pool
      ensures Valid()
      ensures pool[..] == old(pool[..])[mip := old(pool[mip]).(shareCount := 0)]
    {
      var m := pool[mip].(shareCount := 0);
      pool[mip] := m;
      assert pool[..] == old(pool[..])[mip := m];
      SameIdentityKeeps(old(pool[..]), freeList, cacheList, mip, m);
    }

    /**
     * iget(dev, ino). A hit returns the cached slot with both counts bumped. A miss
     * pops the free list, loads the record from the inode table and links the slot
     * into the cache list by count. With an empty free list the first cache-list node
     * with shareCount == 0 is given the new identity as it stands: its old record is
     * neither written back nor replaced, and it keeps its place in the list. With no
     * such node the source dereferences null; here the result is None.
     */
    method Iget(dev: int, ino: int) returns (r: Option<nat>)
      requires Valid()
      requires 1 <= ino <= ninodes
      modifies this, pool
      ensures Valid()
      ensures disk == old(disk)
      ensures r.Some? ==> r.value < pool.Length && r.value in cacheList && pool[r.value].dev == dev && pool[r.value].ino == ino
      ensures Acquires(old(pool[..]), old(freeList), old(cacheList), pool[..], freeList, cacheList,
                       LoadInode(disk, iblk, ino), dev, ino, r)
      // An insertion keeps a count-ordered cache list ordered.
      ensures (!KeyCached(old(pool[..]), old(cacheList), dev, ino) && old(freeList) != [] &&
               SortedByCount(old(pool[..]), old(cacheList))) ==> SortedByCount(pool[..], cacheList)
    {
      var i := Find(dev, ino);
      if i < |cacheList| {
        var s := cacheList[i];
        var m := Acquired(pool[s]);
        pool[s] := m;
        assert pool[..] == old(pool[..])[s := m];
        SameIdentityKeeps(old(pool[..]), freeList, cacheList, s, m);
        return Some(s);
      }
      if freeList != [] {
        r := Admit(dev, ino);
      } else {
        r := Reclaim(dev, ino);
      }
    }

    /**
     * iget's scan of the cache list: the position of the node holding (dev, ino), or
     * the length of the list when no node holds it.
     */
    method Find(dev: int, ino: int) returns (i: nat)
      requires InPool(cacheList, pool.Length)
      ensures i <= |cacheList|
      ensures i < |cacheList| ==> pool[cacheList[i]].dev == dev && pool[cacheList[i]].ino == ino
      ensures forall j | 0 <= j < i :: !(pool[cacheList[j]].dev == dev && pool[cacheList[j]].ino == ino)
      ensures i == |cacheList| <==> !KeyCached(pool[..], cacheList, dev, ino)
    {
      i := 0;
      while i < |cacheList|
        invariant 0 <= i <= |cacheList|
        invariant forall j | 0 <= j < i :: !(pool[cacheList[j]].dev == dev && pool[cacheList[j]].ino == ino)
      {
        var s := cacheList[i];
        if pool[s].dev == dev && pool[s].ino == ino {
          return;
        }
        i := i + 1;
      }
    }

    /**
     * The miss path of iget: pop a slot from the free list, give it identity
     * (dev, ino) with fresh counts and the record read from the inode table, and
     * link it into the cache list by count.
     */
    method Admit(dev: int, ino: int) returns (r: Option<nat>)
      requires Valid() && freeList != []
      requires 1 <= ino <= ninodes
      requires !KeyCached(pool[..], cacheList, dev, ino)
      modifies this, pool
      ensures Valid()
      ensures disk == old(disk)
      ensures var s := old(freeList)[0];
              var k := InsertPos(pool[..], old(cacheList), 1);
              && r == Some(s)
              && freeList == old(freeList)[1..]
              && pool[..] == old(pool[..])[s := Minode(dev, ino, 1, 1, false, LoadInode(disk, iblk, ino))]
              && cacheList == old(cacheList)[..k] + [s] + old(cacheList)[k..]
      ensures SortedByCount(old(pool[..]), old(cacheList)) ==> SortedByCount(pool[..], cacheList)
    {
      var head, rest := Dequeue(freeList);
      var s := head.value;
      assert s == freeList[0] && rest == freeList[1..];
      assert s !in cacheList;
      InodeBlockMonotonic(ino, ninodes, iblk);
      var blk := InodeBlock(ino, iblk);
      var m := Minode(dev, ino, 1, 1, false, ReadInode(disk[blk], InodeOffset(ino)));
      freeList := rest;
      pool[s] := m;
      assert pool[..] == old(pool[..])[s := m];
      var ok, list, pos := Enqueue(cacheList, s);
      AdmitKeeps(old(pool[..]), old(freeList), cacheList, pos, m);
      if SortedByCount(old(pool[..]), cacheList) {
        AdmitSorted(old(pool[..]), cacheList, s, m);
      }
      cacheList := list;
      r := Some(s);
    }

    /**
     * The eviction path of iget: the first cache-list node with shareCount == 0
     * takes identity (dev, ino) and fresh counts but keeps its record and its place
     * in the list; None where the source would run off the end of the list.
     */
    method Reclaim(dev: int, ino: int) returns (r: Option<nat>)
      requires Valid()
      requires !KeyCached(pool[..], cacheList, dev, ino)
      modifies pool
      ensures Valid()
      ensures r.Some? ==> r.value < pool.Length && r.value in cacheList
      ensures var k := FirstIdle(old(pool[..]), cacheList);
              && (k < |cacheList| ==>
                    && r == Some(cacheList[k])
                    && pool[..] == old(pool[..])[r.value := old(pool[r.value]).(
                         dev := dev, ino := ino, shareCount := 1, cacheCount := 1, modified := false)])
              && (k == |cacheList| ==> r == None && pool[..] == old(pool[..]))
    {
      var i := 0;
      while i < |cacheList| && pool[cacheList[i]].shareCount != 0
        invariant 0 <= i <= |cacheList|
        invariant forall j | 0 <= j < i :: pool[cacheList[j]].shareCount != 0
      {
        i := i + 1;
      }
      FirstIdleIs(pool[..], cacheList, i);
      if i == |cacheList| {
        return None;
      }
      var s := cacheList[i];
      var m := pool[s].(dev := dev, ino := ino, shareCount := 1, cacheCount := 1, modified := false);
      pool[s] := m;
      assert pool[..] == old(pool[..])[s := m];
      RenameKeeps(old(pool[..]), freeList, cacheList, i, m);
      return Some(s);
    }

    /**
     * iput(mip): drop one reference. When no reference is left and the node is
     * modified, its record is written back (get_block, patch, put_block) to record
     * (ino-1)%8 of block WriteBackBlock(iblockAddr, ino), and shareCount is set to 0
     * (midalloc). The
     * node stays on the cache list either way, and `modified` is left as it was.
     */
    method Iput(mip: Option<nat>)
      requires Valid()
      requires mip.Some? ==> mip.value < pool.Length
      requires mip.Some? && WritesBack(pool[mip.value]) ==>
                 pool[mip.value].ino >= 1 && 0 <= WriteBackBlock(iblockAddr[mip.value], pool[mip.value].ino) < |disk|
      modifies this, pool
      ensures Valid()
      ensures freeList == old(freeList) && cacheList == old(cacheList)
      ensures mip.None? ==> pool[..] == old(pool[..]) && disk == old(disk)
      ensures mip.Some? && !WritesBack(old(pool[mip.value])) ==>
                && pool[..] == old(pool[..])[mip.value := old(pool[mip.value]).(shareCount := old(pool[mip.value]).shareCount - 1)]
                && disk == old(disk)
      ensures mip.Some? && WritesBack(old(pool[mip.value])) ==>
                var m := old(pool[mip.value]);
                && pool[..] == old(pool[..])[mip.value := m.(shareCount := 0)]
                && disk == StoreInode(old(disk), WriteBackBlock(iblockAddr[mip.value], m.ino), InodeOffset(m.ino), m.inode)
      // Where that block is the inode's block in the inode table, loading the inode
      // back gives the record written.
      ensures mip.Some? && WritesBack(old(pool[mip.value])) &&
              WriteBackBlock(iblockAddr[mip.value], old(pool[mip.value]).ino) == InodeBlock(old(pool[mip.value]).ino, iblk) ==>
                LoadInode(disk, iblk, old(pool[mip.value]).ino) == old(pool[mip.value]).inode
    {
      if mip.None? {
        return;
      }
      var s := mip.value;
      var m1 := pool[s].(shareCount := pool[s].shareCount - 1);
      pool[s] := m1;
      assert pool[..] == old(pool[..])[s := m1];
      SameIdentityKeeps(old(pool[..]), freeList, cacheList, s, m1);
      if pool[s].shareCount > 0 {
        return;
      }
      if !pool[s].modified {
        return;
      }
      var m := pool[s];
      var block := WriteBackBlock(iblockAddr[s], m.ino);
      var offset := InodeOffset(m.ino);
      disk := disk[block := WriteInode(disk[block], offset, m.inode)];
      ghost var p1 := pool[..];
      var m2 := m.(shareCount := 0);
      pool[s] := m2;
      assert pool[..] == p1[s := m2];
      SameIdentityKeeps(p1, freeList, cacheList, s, m2);
      if block == InodeBlock(m.ino, iblk) {
        LoadAfterStore(old(disk), iblk, m.ino, m.inode, m.ino);
      }
    }
  }

  /** Changing a slot's contents but not its identity keeps the partition. */
  lemma SameIdentityKeeps(p: seq<Minode>, free: seq<nat>, cache: seq<nat>, s: nat, m: Minode)
    requires Partition(p, free, cache) && s < |p|
    requires m.dev == p[s].dev && m.ino == p[s].ino
    ensures Partition(p[s := m], free, cache)
  {
    var p' := p[s := m];
    assert forall i | 0 <= i < |cache| :: p'[cache[i]].dev == p[cache[i]].dev && p'[cache[i]].ino == p[cache[i]].ino;
  }

  /**
   * Giving a slot of the cache list an identity the list does not hold keeps the
   * partition.
   */
  lemma RenameKeeps(p: seq<Minode>, free: seq<nat>, cache: seq<nat>, k: nat, m: Minode)
    requires Partition(p, free, cache) && k < |cache|
    requires !KeyCached(p, cache, m.dev, m.ino)
    ensures Partition(p[cache[k] := m], free, cache)
  {
    var p' := p[cache[k] := m];
    assert forall i | 0 <= i < |cache| && i != k :: p'[cache[i]] == p[cache[i]];
  }

  /**
   * Moving the head of the free list, with an identity the cache list does not hold,
   * into the cache list at any position keeps the partition.
   */
  lemma AdmitKeeps(p: seq<Minode>, free: seq<nat>, cache: seq<nat>, k: nat, m: Minode)
    requires Partition(p, free, cache) && free != [] && k <= |cache|
    requires !KeyCached(p, cache, m.dev, m.ino)
    ensures Partition(p[free[0] := m], free[1..], cache[..k] + [free[0]] + cache[k..])
  {
    var s := free[0];
    var p' := p[s := m];
    assert forall j | 0 <= j < |cache| :: cache[j] != s;
    assert forall j | 0 <= j < |cache| :: p'[cache[j]] == p[cache[j]];
    InsertedKeepsLists(free, cache, k, s);
    InsertedKeepsKeys(p', cache, k, s);
  }

  /** Giving a slot off a sorted list new contents and inserting it at InsertPos keeps the list sorted. */
  lemma AdmitSorted(p: seq<Minode>, cache: seq<nat>, s: nat, m: Minode)
    requires InPool(cache, |p|) && s < |p| && s !in cache && SortedByCount(p, cache)
    ensures var p' := p[s := m];
            var k := InsertPos(p', cache, m.cacheCount);
            InPool(cache[..k] + [s] + cache[k..], |p'|) && SortedByCount(p', cache[..k] + [s] + cache[k..])
  {
    var p' := p[s := m];
    assert forall j | 0 <= j < |cache| :: p'[cache[j]] == p[cache[j]];
    SortedInsert(p', cache, s);
  }

  /** Moving the head of the free list into the cache list keeps the two lists a partition. */
  lemma InsertedKeepsLists(free: seq<nat>, cache: seq<nat>, k: nat, s: nat)
    requires free != [] && s == free[0] && k <= |cache|
    requires NoDup(free) && NoDup(cache)
    requires forall i, j | 0 <= i < |free| && 0 <= j < |cache| :: free[i] != cache[j]
    ensures var cache' := cache[..k] + [s] + cache[k..];
            && NoDup(free[1..]) && NoDup(cache')
            && (forall i, j | 0 <= i < |free[1..]| && 0 <= j < |cache'| :: free[1..][i] != cache'[j])
            && (forall x :: x in free || x in cache <==> x in free[1..] || x in cache')
  {
    var cache' := cache[..k] + [s] + cache[k..];
    var free' := free[1..];
    forall i, j | 0 <= i < j < |cache'|
      ensures cache'[i] != cache'[j]
    {
      InsertedAt(cache, k, s, i);
      InsertedAt(cache, k, s, j);
      if i == k {
        assert free[0] != cache[j - 1];
      } else if j == k {
        assert free[0] != cache[i];
      }
    }
    forall i, j | 0 <= i < |free'| && 0 <= j < |cache'|
      ensures free'[i] != cache'[j]
    {
      InsertedAt(cache, k, s, j);
      assert free'[i] == free[i + 1];
    }
    assert free == [s] + free';
    assert cache == cache[..k] + cache[k..];
  }

  /** Linking a slot with a fresh identity into the cache list keeps identities unique. */
  lemma InsertedKeepsKeys(p: seq<Minode>, cache: seq<nat>, k: nat, s: nat)
    requires InPool(cache, |p|) && s < |p| && k <= |cache|
    requires UniqueKeys(p, cache) && !KeyCached(p, cache, p[s].dev, p[s].ino)
    ensures var cache' := cache[..k] + [s] + cache[k..];
            InPool(cache', |p|) && UniqueKeys(p, cache')
  {
    var cache' := cache[..k] + [s] + cache[k..];
    forall i | 0 <= i < |cache'|
      ensures cache'[i] < |p|
    {
      InsertedAt(cache, k, s, i);
    }
    forall i, j | 0 <= i < j < |cache'|
      ensures !(p[cache'[i]].dev == p[cache'[j]].dev && p[cache'[i]].ino == p[cache'[j]].ino)
    {
      InsertedAt(cache, k, s, i);
      InsertedAt(cache, k, s, j);
    }
  }

  /** The index the eviction loop stops at is FirstIdle. */
  lemma FirstIdleIs(p: seq<Minode>, list: seq<nat>, k: nat)
    requires InPool(list, |p|) && k <= |list|
    requires forall j | 0 <= j < k :: p[list[j]].shareCount != 0
    requires k < |list| ==> p[list[k]].shareCount == 0
    ensures k == FirstIdle(p, list)
  {
  }
}

=== FILE: dirblock.dfy ===
/**
 * Directory data blocks: the packed, variable-length records of an ext2 directory
 * and the three scans the source runs over a directory's first data block
 * (search, findmyname, findino).
 *
 * Record layout (struct ext2_dir_entry_2): inode, 32-bit little-endian at offset 0;
 * rec_len, 16-bit at offset 4; name_len, one byte at offset 6; file_type, one byte at
 * offset 7; then name_len name bytes, not NUL-terminated. Each record's rec_len is the
 * distance to the next one; the scan stops when the cursor reaches the block's end.
 */
module DirBlock {

  import opened Wrappers
  import opened Disk

  /** Byte offset of the name inside a record. */
  const HEADER: nat := 8

  /** One decoded directory record. */
  datatype DirEntry = DirEntry(ino: nat, recLen: nat, name: string)

  // ---------------------------------------------------------------------------
  // Reading one record at cursor `cp`

  /**
   * The string the source compares: the name bytes are copied with strncpy and
   * terminated, so the name ends at its first NUL byte, if any.
   */
  function CName(s: seq<byte>): (t: string)
    ensures |t| <= |s|
    ensures forall i | 0 <= i < |t| :: t[i] as int == s[i] && s[i] != 0
    ensures |t| < |s| ==> s[|t|] == 0
    decreases |s|
  {
    if s == [] || s[0] == 0 then [] else [s[0] as char] + CName(s[1..])
  }

  /** The header and the name of the record at `cp` lie inside the block. */
  predicate NameInBlock(b: seq<byte>, cp: nat)
  {
    cp + HEADER <= |b| && cp + HEADER + b[cp + 6] <= |b|
  }

  /**
   * The record at `cp` can be read without leaving the block, and advancing by its
   * rec_len makes progress (a zero rec_len would make the source's scan loop forever).
   */
  predicate RecordOk(b: seq<byte>, cp: nat)
  {
    NameInBlock(b, cp) && U16(b, cp + 4) > 0
  }

  /** dp->inode: the 32-bit little-endian field at offset 0 of the record. */
  function RecIno(b: seq<byte>, cp: nat): (ino: nat)
    requires cp + HEADER <= |b|
    ensures ino < 0x1_0000_0000
    ensures ino == b[cp] as int + 0x100 * b[cp + 1] as int + 0x1_0000 * b[cp + 2] as int + 0x100_0000 * b[cp + 3] as int
  {
    U32(b, cp)
  }

  /** dp->rec_len: the 16-bit little-endian field at offset 4 of the record. */
  function RecLen(b: seq<byte>, cp: nat): (n: nat)
    requires cp + HEADER <= |b|
    ensures n < 0x1_0000 && n == b[cp + 4] as int + 0x100 * b[cp + 5] as int
  {
    U16(b, cp + 4)
  }

  /**
   * dp->name as the source copies it: name_len (the byte at offset 6) bytes from
   * offset 8, cut at the first NUL.
   */
  function RecName(b: seq<byte>, cp: nat): (name: string)
    requires NameInBlock(b, cp)
    ensures |name| <= b[cp + 6]
    ensures forall i | 0 <= i < |name| :: name[i] as int == b[cp + HEADER + i] != 0
    ensures |name| < b[cp + 6] ==> b[cp + HEADER + |name|] == 0
  {
    CName(b[cp + HEADER .. cp + HEADER + b[cp + 6]])
  }

  /** Every record the scan from `cp` visits is readable, up to the end of the block. */
  predicate ScanOk(b: seq<byte>, cp: nat)
    decreases |b| - cp
  {
    cp >= |b| || (RecordOk(b, cp) && ScanOk(b, cp + RecLen(b, cp)))
  }

  /** The records the scan from `cp` visits, decoded, in order. */
  function Entries(b: seq<byte>, cp: nat): (es: seq<DirEntry>)
    requires ScanOk(b, cp)
    // one entry per record visited, each moving the cursor on by at least a byte
    ensures es == [] <==> cp >= |b|
    ensures es == [] || cp + |es| <= |b|
    decreases |b| - cp
  {
    if cp >= |b| then []
    else [DirEntry(RecIno(b, cp), RecLen(b, cp), RecName(b, cp))] + Entries(b, cp + RecLen(b, cp))
  }

  /** No entry before position j is called `name`. */
  predicate NoneNamedBefore(es: seq<DirEntry>, j: nat, name: string)
    requires j <= |es|
  {
    forall i | 0 <= i < j :: es[i].name != name
  }

  /** No entry before position j carries inode number `ino`. */
  predicate NoneNumberedBefore(es: seq<DirEntry>, j: nat, ino: nat)
    requires j <= |es|
  {
    forall i | 0 <= i < j :: es[i].ino != ino
  }

  /** The scan from `cp` visits the record at `cp` and then the scan from the next record. */
  lemma EntriesStep(b: seq<byte>, cp: nat)
    requires ScanOk(b, cp) && cp < |b|
    ensures var es := Entries(b, cp);
            && |es| > 0
            && es[0] == DirEntry(RecIno(b, cp), RecLen(b, cp), RecName(b, cp))
            && es[1..] == Entries(b, cp + RecLen(b, cp))
  {
  }

  // ---------------------------------------------------------------------------
  // search: name -> inode number

  /** Name lookup in a decoded entry list: the inode of the first entry called `name`, else 0. */
  function Lookup(es: seq<DirEntry>, name: string): (ino: nat)
    ensures NoneNamedBefore(es, |es|, name) ==> ino == 0
    ensures forall j | 0 <= j < |es| && es[j].name == name && NoneNamedBefore(es, j, name) :: ino == es[j].ino
  {
    if es == [] then 0
    else if es[0].name == name then es[0].ino
    else
      var rest := es[1..];
      assert forall j | 1 <= j <= |es| && NoneNamedBefore(es, j, name) :: NoneNamedBefore(rest, j - 1, name);
      Lookup(rest, name)
  }

  /**
   * What search reads from `cp` on lies in the block and makes progress: each
   * record's header and name, up to the first record called `name` or, when none
   * is, to the end of the block; every record before that one has a nonzero rec_len.
   */
  predicate SearchOk(b: seq<byte>, cp: nat, name: string)
    decreases |b| - cp
  {
    cp >= |b| ||
      (NameInBlock(b, cp) && (RecName(b, cp) == name || (RecLen(b, cp) > 0 && SearchOk(b, cp + RecLen(b, cp), name))))
  }

  /** A block whose records all scan cleanly is one search can read, whatever the name. */
  lemma {:induction false} ScanSearchOk(b: seq<byte>, cp: nat, name: string)
    requires ScanOk(b, cp)
    ensures SearchOk(b, cp, name)
    decreases |b| - cp
  {
    if cp < |b| {
      ScanSearchOk(b, cp + RecLen(b, cp), name);
    }
  }

  /**
   * The loop of search from cursor `cp`: the inode number of the first record called
   * `name`, or 0; over records that all scan cleanly, Lookup in them.
   */
  function SearchFrom(b: seq<byte>, cp: nat, name: string): (ino: nat)
    requires SearchOk(b, cp, name)
    ensures ScanOk(b, cp) ==> ino == Lookup(Entries(b, cp), name)
    decreases |b| - cp
  {
    if cp >= |b| then 0
    else if RecName(b, cp) == name then RecIno(b, cp)
    else SearchFrom(b, cp + RecLen(b, cp), name)
  }

  /** get_block of the directory's first data block stays inside the image, and its records scan cleanly. */
  predicate DirReadable(disk: seq<Block>, dir: InodeRec)
  {
    Block0(dir) < |disk| && ScanOk(disk[Block0(dir)], 0)
  }

  /** get_block of the directory's first data block stays inside the image, and search can read it for `name`. */
  predicate Searchable(disk: seq<Block>, dir: InodeRec, name: string)
  {
    Block0(dir) < |disk| && SearchOk(disk[Block0(dir)], 0, name)
  }

  /** The records of the directory's first data block. */
  function DirEntries(disk: seq<Block>, dir: InodeRec): seq<DirEntry>
    requires DirReadable(disk, dir)
  {
    Entries(disk[Block0(dir)], 0)
  }

  /** search(mip, name): look `name` up in the directory whose inode record is `dir`. */
  function Search(disk: seq<Block>, dir: InodeRec, name: string): (ino: nat)
    requires Searchable(disk, dir, name)
    ensures DirReadable(disk, dir) ==> ino == Lookup(DirEntries(disk, dir), name)
  {
    SearchFrom(disk[Block0(dir)], 0, name)
  }

  // ---------------------------------------------------------------------------
  // findmyname: inode number -> name

  /** Reverse lookup in a decoded entry list: the name of the first entry numbered `myino`. */
  function NameOf(es: seq<DirEntry>, myino: nat): (r: Option<string>)
    ensures NoneNumberedBefore(es, |es|, myino) ==> r == None
    ensures forall j | 0 <= j < |es| && es[j].ino == myino && NoneNumberedBefore(es, j, myino) :: r == Some(es[j].name)
  {
    if es == [] then None
    else if es[0].ino == myino then Some(es[0].name)
    else
      var rest := es[1..];
      assert forall j | 1 <= j <= |es| && NoneNumberedBefore(es, j, myino) :: NoneNumberedBefore(rest, j - 1, myino);
      NameOf(rest, myino)
  }

  /**
   * What findmyname reads from `cp` on lies in the block and makes progress: the
   * header of each record up to the first one numbered `myino`, and that record's
   * name; or, when none is, every header to the end of the block. Every record
   * before the match has a nonzero rec_len.
   */
  predicate FindMyNameOk(b: seq<byte>, cp: nat, myino: nat)
    decreases |b| - cp
  {
    cp >= |b| ||
      (cp + HEADER <= |b| &&
       if RecIno(b, cp) == myino then NameInBlock(b, cp)
       else RecLen(b, cp) > 0 && FindMyNameOk(b, cp + RecLen(b, cp), myino))
  }

  /** A block whose records all scan cleanly is one findmyname can read, whatever the number. */
  lemma {:induction false} ScanFindMyNameOk(b: seq<byte>, cp: nat, myino: nat)
    requires ScanOk(b, cp)
    ensures FindMyNameOk(b, cp, myino)
    decreases |b| - cp
  {
    if cp < |b| {
      ScanFindMyNameOk(b, cp + RecLen(b, cp), myino);
    }
  }

  /**
   * The loop of findmyname from cursor `cp`: the name of the first record numbered
   * `myino`, or None; over records that all scan cleanly, NameOf them.
   */
  function FindMyNameFrom(b: seq<byte>, cp: nat, myino: nat): (r: Option<string>)
    requires FindMyNameOk(b, cp, myino)
    ensures ScanOk(b, cp) ==> r == NameOf(Entries(b, cp), myino)
    decreases |b| - cp
  {
    if cp >= |b| then None
    else if RecIno(b, cp) == myino then Some(RecName(b, cp))
    else FindMyNameFrom(b, cp + RecLen(b, cp), myino)
  }

  /**
   * findmyname(pip, myino, myname): the pair (return value, name written to myname).
   * The source returns myino and fills myname on a match, and returns 0 leaving
   * myname untouched otherwise.
   */
  function FindMyName(disk: seq<Block>, pip: InodeRec, myino: nat): (r: (nat, Option<string>))
    requires Block0(pip) < |disk| && FindMyNameOk(disk[Block0(pip)], 0, myino)
    ensures r.0 == (if r.1.Some? then myino else 0)
    ensures DirReadable(disk, pip) ==> r.1 == NameOf(DirEntries(disk, pip), myino)
  {
    var found := FindMyNameFrom(disk[Block0(pip)], 0, myino);
    (if found.Some? then myino else 0, found)
  }

  /**
   * In a directory whose entries carry distinct inode numbers, the name search
   * found is the name findmyname gives back for the inode number found.
   */
  lemma {:induction false} NameOfLookup(es: seq<DirEntry>, name: string)
    requires forall i, j | 0 <= i < j < |es| :: es[i].ino != es[j].ino
    requires Lookup(es, name) != 0
    ensures NameOf(es, Lookup(es, name)) == Some(name)
  {
    if es[0].name != name {
      var rest := es[1..];
      NameOfLookup(rest, name);
      LookupFrom(rest, name);
    }
  }

  /** A nonzero result of Lookup is the inode number of some entry. */
  lemma {:induction false} LookupFrom(es: seq<DirEntry>, name: string)
    requires Lookup(es, name) != 0
    ensures exists j | 0 <= j < |es| :: es[j].ino == Lookup(es, name)
  {
    if es[0].name != name {
      LookupFrom(es[1..], name);
      var j :| 0 <= j < |es| - 1 && es[1..][j].ino == Lookup(es, name);
      assert es[j + 1].ino == Lookup(es, name);
    }
  }

  /**
   * In a directory whose entries carry distinct names, the inode number findmyname
   * found a name for is what search finds for that name.
   */
  lemma {:induction false} LookupNameOf(es: seq<DirEntry>, myino: nat)
    requires forall i, j | 0 <= i < j < |es| :: es[i].name != es[j].name
    requires NameOf(es, myino).Some?
    ensures Lookup(es, NameOf(es, myino).value) == myino
  {
    if es[0].ino != myino {
      var rest := es[1..];
      LookupNameOf(rest, myino);
      NameOfFrom(rest, myino);
    }
  }

  /** A name NameOf returns is the name of some entry. */
  lemma {:induction false} NameOfFrom(es: seq<DirEntry>, myino: nat)
    requires NameOf(es, myino).Some?
    ensures exists j | 0 <= j < |es| :: es[j].name == NameOf(es, myino).value
  {
    if es[0].ino != myino {
      NameOfFrom(es[1..], myino);
      var j :| 0 <= j < |es| - 1 && es[1..][j].name == NameOf(es, myino).value;
      assert es[j + 1].name == NameOf(es, myino).value;
    }
  }

  // ---------------------------------------------------------------------------
  // findino: the first two records ("." and "..")

  /**
   * findino(mip, &myino): the pair (value stored in *myino, return value), read from
   * the first record and from the record rec_len bytes after it. The source reads the
   * second inode field wherever the first rec_len points, so that field must lie in
   * the block.
   */
  function FindIno(disk: seq<Block>, dir: InodeRec): (r: (nat, nat))
    requires Block0(dir) < |disk|
    requires RecLen(disk[Block0(dir)], 0) + 4 <= BLKSIZE
    ensures var b := disk[Block0(dir)];
            ScanOk(b, 0) && |Entries(b, 0)| >= 2 ==> r == (Entries(b, 0)[0].ino, Entries(b, 0)[1].ino)
  {
    var b := disk[Block0(dir)];
    (U32(b, 0), U32(b, RecLen(b, 0)))
  }

  // ---------------------------------------------------------------------------
  // The encoding side: records written into a block decode back to themselves

  /** A name a record can hold: at most 255 bytes, none of them NUL. */
  predicate StorableName(name: string)
  {
    |name| < 256 && forall i | 0 <= i < |name| :: 0 < name[i] as int < 256
  }

  /** An entry a record can hold: 32-bit inode, 16-bit rec_len covering header and name. */
  predicate Encodable(e: DirEntry)
  {
    e.ino < 0x1_0000_0000 && StorableName(e.name) && HEADER + |e.name| <= e.recLen < 0x1_0000
  }

  /** The bytes of a storable name; the source's strncpy copy gives the name back. */
  function NameBytes(name: string): (s: seq<byte>)
    requires StorableName(name)
    ensures |s| == |name| && CName(s) == name
  {
    if name == [] then []
    else
      var rest := NameBytes(name[1..]);
      assert CName([name[0] as int] + rest) == [name[0]] + CName(rest);
      [name[0] as int] + rest
  }

  /** One record, padded with zero bytes to its rec_len. */
  function EncodeEntry(e: DirEntry): (s: seq<byte>)
    requires Encodable(e)
    ensures |s| == e.recLen
  {
    Le32(e.ino) + Le16(e.recLen) + [|e.name|, 0] + NameBytes(e.name) + seq(e.recLen - HEADER - |e.name|, _ => 0)
  }

  /** Records packed one after the other. */
  function Encode(es: seq<DirEntry>): seq<byte>
    requires forall i | 0 <= i < |es| :: Encodable(es[i])
  {
    if es == [] then [] else EncodeEntry(es[0]) + Encode(es[1..])
  }

  /** Two byte strings that agree from `i` and from `j` on hold the same record there. */
  lemma SameRecord(s: seq<byte>, i: nat, t: seq<byte>, j: nat)
    requires i < |s| && j < |t| && s[i..] == t[j..]
    ensures RecordOk(s, i) <==> RecordOk(t, j)
    ensures RecordOk(s, i) ==>
              RecIno(s, i) == RecIno(t, j) && RecLen(s, i) == RecLen(t, j) && RecName(s, i) == RecName(t, j)
  {
    var u := s[i..];
    assert |s| - i == |t| - j;
    if i + HEADER <= |s| {
      assert forall k | 0 <= k < HEADER :: s[i + k] == u[k] == t[j + k];
      if RecordOk(s, i) {
        assert s[i + HEADER .. i + HEADER + s[i + 6]] == u[HEADER .. HEADER + s[i + 6]] == t[j + HEADER .. j + HEADER + t[j + 6]];
      }
    }
  }

  /** Dropping more of two equal tails leaves equal tails. */
  lemma DropBoth(s: seq<byte>, i: nat, t: seq<byte>, j: nat, n: nat)
    requires i + n <= |s| && j + n <= |t| && s[i..] == t[j..]
    ensures s[i + n..] == t[j + n..]
  {
    assert s[i + n..] == s[i..][n..];
    assert t[j + n..] == t[j..][n..];
  }

  /** A scan depends only on the bytes from its cursor on. */
  lemma {:induction false} ScanShift(s: seq<byte>, i: nat, t: seq<byte>, j: nat)
    requires i <= |s| && j <= |t| && s[i..] == t[j..]
    requires ScanOk(t, j)
    ensures ScanOk(s, i) && Entries(s, i) == Entries(t, j)
    decreases |t| - j
  {
    assert |s| - i == |t| - j;
    if j < |t| {
      SameRecord(s, i, t, j);
      var n := RecLen(t, j);
      if j + n < |t| {
        DropBoth(s, i, t, j, n);
        ScanShift(s, i + n, t, j + n);
      }
    }
  }

  /** Decoding at `|p| + c` after a prefix p is decoding at c without it. */
  lemma ScanAfterPrefix(p: seq<byte>, b: seq<byte>, c: nat)
    requires c <= |b| && ScanOk(b, c)
    ensures ScanOk(p + b, |p| + c) && Entries(p + b, |p| + c) == Entries(b, c)
  {
    assert (p + b)[|p| + c..] == b[c..];
    ScanShift(p + b, |p| + c, b, c);
  }

  /** The first record of `EncodeEntry(e) + rest` decodes to e. */
  lemma DecodeFirst(e: DirEntry, rest: seq<byte>)
    requires Encodable(e)
    ensures var b := EncodeEntry(e) + rest;
            RecordOk(b, 0) && RecIno(b, 0) == e.ino && RecLen(b, 0) == e.recLen && RecName(b, 0) == e.name
  {
    var b := EncodeEntry(e) + rest;
    var i4, l2 := Le32(e.ino), Le16(e.recLen);
    assert b[..4] == i4 && b[4..6] == l2;
    assert U32(b, 0) == U32(i4, 0);
    assert U16(b, 4) == U16(l2, 0);
    assert b[6] == |e.name|;
    assert b[HEADER .. HEADER + |e.name|] == NameBytes(e.name);
  }

  /** A record packed in front of a block that scans cleanly decodes to itself, then the block's records. */
  lemma DecodeCons(e: DirEntry, tail: seq<byte>)
    requires Encodable(e) && ScanOk(tail, 0)
    ensures var b := EncodeEntry(e) + tail;
            ScanOk(b, 0) && Entries(b, 0) == [e] + Entries(tail, 0)
  {
    var head := EncodeEntry(e);
    var b := head + tail;
    DecodeFirst(e, tail);
    ScanAfterPrefix(head, tail, 0);
    assert RecLen(b, 0) == |head| + 0;
  }

  /** Packing a list of entries into bytes and scanning the bytes gives the list back. */
  lemma {:induction false} DecodeEncode(es: seq<DirEntry>)
    requires forall i | 0 <= i < |es| :: Encodable(es[i])
    ensures ScanOk(Encode(es), 0) && Entries(Encode(es), 0) == es
  {
    if es != [] {
      DecodeEncode(es[1..]);
      DecodeCons(es[0], Encode(es[1..]));
      assert Encode(es) == EncodeEntry(es[0]) + Encode(es[1..]);
      assert es == [es[0]] + es[1..];
    }
  }

  /** The entries of the example block: "etc" (inode 5), then "bin" (inode 9) filling the block. */
  const EtcBin: seq<DirEntry> := [DirEntry(5, 12, "etc"), DirEntry(9, 1012, "bin")]

  /** The example block is one block long and decodes to its entries. */
  lemma EtcBinDecodes()
    ensures forall i | 0 <= i < |EtcBin| :: Encodable(EtcBin[i])
    ensures var b := Encode(EtcBin); |b| == BLKSIZE && ScanOk(b, 0) && Entries(b, 0) == EtcBin
  {
    assert forall i | 0 <= i < |EtcBin| :: Encodable(EtcBin[i]);
    DecodeEncode(EtcBin);
    assert Encode(EtcBin) == EncodeEntry(EtcBin[0]) + (EncodeEntry(EtcBin[1]) + Encode([]));
  }

  /**
   * In the block holding "etc" (inode 5) and then "bin" (inode 9): looking up "bin"
   * gives 9, looking up "usr" gives 0, and the name of inode 5 is "etc".
   */
  lemma EtcBinExample()
    ensures forall i | 0 <= i < |EtcBin| :: Encodable(EtcBin[i])
    ensures var b := Encode(EtcBin);
            && |b| == BLKSIZE && ScanOk(b, 0)
            && SearchOk(b, 0, "bin") && SearchFrom(b, 0, "bin") == 9
            && SearchOk(b, 0, "usr") && SearchFrom(b, 0, "usr") == 0
            && FindMyNameOk(b, 0, 5) && FindMyNameFrom(b, 0, 5) == Some("etc")
  {
    EtcBinDecodes();
    var b := Encode(EtcBin);
    ScanSearchOk(b, 0, "bin");
    ScanSearchOk(b, 0, "usr");
    ScanFindMyNameOk(b, 0, 5);
    assert NoneNamedBefore(EtcBin, 1, "bin");
    assert NoneNumberedBefore(EtcBin, 0, 5);
  }

  /**
   * A block whose first record, "a" (inode 5), is followed by a record with rec_len
   * 0: the block does not scan cleanly, yet search finds 5 for "a" and findmyname
   * names inode 5 "a", as the source does, which returns at the match.
   */
  lemma MatchBeforeBadRecord()
    ensures var b := Encode([DirEntry(5, 12, "a")]) + seq(BLKSIZE - 12, _ => 0);
            && |b| == BLKSIZE && !ScanOk(b, 0)
            && SearchOk(b, 0, "a") && SearchFrom(b, 0, "a") == 5
            && FindMyNameOk(b, 0, 5) && FindMyNameFrom(b, 0, 5) == Some("a")
  {
    var e := DirEntry(5, 12, "a");
    var b := Encode([e]) + seq(BLKSIZE - 12, _ => 0);
    assert Encode([e]) == EncodeEntry(e) + [];
    DecodeFirst(e, seq(BLKSIZE - 12, _ => 0));
    assert b[12 + 4] == 0 && b[12 + 5] == 0;
    assert !RecordOk(b, 12);
  }
}

=== FILE: disk.dfy ===
/**
 * The block device as the cache sees it: an image of fixed-size blocks of bytes,
 * little-endian field access, and the inode table arithmetic of iget/iput.
 *
 * The layout constants are those of an ext2 image with 1 KiB blocks and 128-byte
 * inode records (eight records per block), which is what the source's literal `8`
 * in `(ino-1)/8` and `(ino-1)%8` presupposes.
 */
module Disk {

  /** BLKSIZE: bytes per block. */
  const BLKSIZE: nat := 1024
  /** Bytes per on-disk inode record (struct ext2_inode). */
  const INODE_SIZE: nat := 128
  /** Inode records per block: the literal 8 of the source's inode arithmetic. */
  const INODES_PER_BLOCK: nat := 8

  type byte = x: int | 0 <= x < 256

  type Block = s: seq<byte> | |s| == BLKSIZE witness seq(1024, i => 0)

  /** A raw on-disk inode record, copied verbatim into a minode's INODE field. */
  type InodeRec = s: seq<byte> | |s| == INODE_SIZE witness seq(128, i => 0)

  // ---------------------------------------------------------------------------
  // Little-endian fields

  /** The unsigned 16-bit little-endian field at byte offset i. */
  function U16(s: seq<byte>, i: nat): (v: nat)
    requires i + 2 <= |s|
    ensures v < 0x1_0000
  {
    s[i] as int + 256 * (s[i + 1] as int)
  }

  /** The unsigned 32-bit little-endian field at byte offset i. */
  function U32(s: seq<byte>, i: nat): (v: nat)
    requires i + 4 <= |s|
    ensures v < 0x1_0000_0000
  {
    U16(s, i) + 0x1_0000 * U16(s, i + 2)
  }

  /** The two bytes of v in little-endian order: the inverse of U16. */
  function Le16(v: nat): (s: seq<byte>)
    requires v < 0x1_0000
    ensures |s| == 2 && U16(s, 0) == v
  {
    [v % 256, v / 256]
  }

  /** The four bytes of v in little-endian order: the inverse of U32. */
  function Le32(v: nat): (s: seq<byte>)
    requires v < 0x1_0000_0000
    ensures |s| == 4 && U32(s, 0) == v
  {
    var lo, hi := Le16(v % 0x1_0000), Le16(v / 0x1_0000);
    assert U16(lo + hi, 0) == U16(lo, 0);
    assert U16(lo + hi, 2) == U16(hi, 0);
    lo + hi
  }

  // ---------------------------------------------------------------------------
  // Inode records

  /** i_mode, the 16-bit field at offset 0 of an inode record. */
  function Mode(ip: InodeRec): (m: nat)
    ensures m < 0x1_0000 && m == ip[0] as int + 0x100 * ip[1] as int
  {
    U16(ip, 0)
  }

  /**
   * S_ISDIR(i_mode): the file-type bits (mask 0xF000) equal 0x4000, that is, the
   * 16-bit mode lies in [0x4000, 0x5000).
   */
  predicate IsDir(ip: InodeRec)
    // the top four of the mode's 16 bits, the ones 0xF000 keeps, read 0100
    ensures IsDir(ip) <==> Mode(ip) / 0x1000 == 0x4000 / 0x1000
  {
    0x4000 <= Mode(ip) < 0x5000
  }

  /** i_block[0], the 32-bit field at offset 40 of an inode record. */
  function Block0(ip: InodeRec): (blk: nat)
    ensures blk < 0x1_0000_0000
    ensures blk == ip[40] as int + 0x100 * ip[41] as int + 0x1_0000 * ip[42] as int + 0x100_0000 * ip[43] as int
  {
    U32(ip, 40)
  }

  /** Block of the inode table that starts at `base` holding inode `ino` (inode numbers start at 1). */
  function InodeBlock(ino: int, base: int): (blk: int)
    requires ino >= 1
    ensures base <= blk
    ensures (blk - base) * INODES_PER_BLOCK <= ino - 1 < (blk - base + 1) * INODES_PER_BLOCK
  {
    (ino - 1) / INODES_PER_BLOCK + base
  }

  /**
   * The block iput writes inode `ino` back to. The source adds (ino-1)/8 to
   * `mip->INODE.i_block`, a pointer to 32-bit words, so each step moves 4 bytes;
   * `addr` is that pointer's value as an int.
   */
  function WriteBackBlock(addr: int, ino: int): (blk: int)
    requires ino >= 1
    ensures addr <= blk && (blk - addr) % 4 == 0
    ensures (blk - addr) / 4 * INODES_PER_BLOCK <= ino - 1 < ((blk - addr) / 4 + 1) * INODES_PER_BLOCK
  {
    addr + 4 * ((ino - 1) / INODES_PER_BLOCK)
  }

  /**
   * Eight inode numbers on, iput's block moves by 4 where the inode table's moves by
   * 1, so for no address does iput write both inodes to their table blocks.
   */
  lemma WriteBackStride(addr: int, base: int, ino: int)
    requires ino >= 1
    ensures WriteBackBlock(addr, ino + 8) == WriteBackBlock(addr, ino) + 4
    ensures InodeBlock(ino + 8, base) == InodeBlock(ino, base) + 1
    ensures !(WriteBackBlock(addr, ino) == InodeBlock(ino, base) && WriteBackBlock(addr, ino + 8) == InodeBlock(ino + 8, base))
  {
    assert (ino + 8 - 1) / INODES_PER_BLOCK == (ino - 1) / INODES_PER_BLOCK + 1;
  }

  /** Index of inode `ino`'s record within its block. */
  function InodeOffset(ino: int): (k: nat)
    requires ino >= 1
    ensures k < INODES_PER_BLOCK
  {
    (ino - 1) % INODES_PER_BLOCK
  }

  /** Block and offset together name exactly one inode number. */
  lemma InodeLocationDetermines(a: int, b: int, base: int)
    requires a >= 1 && b >= 1
    ensures InodeBlock(a, base) == InodeBlock(b, base) && InodeOffset(a) == InodeOffset(b) <==> a == b
  {
    assert a - 1 == (InodeBlock(a, base) - base) * INODES_PER_BLOCK + InodeOffset(a);
    assert b - 1 == (InodeBlock(b, base) - base) * INODES_PER_BLOCK + InodeOffset(b);
  }

  /** Larger inode numbers never live in earlier blocks. */
  lemma InodeBlockMonotonic(a: int, b: int, base: int)
    requires 1 <= a <= b
    ensures InodeBlock(a, base) <= InodeBlock(b, base)
  {
    var qa, qb := (a - 1) / INODES_PER_BLOCK, (b - 1) / INODES_PER_BLOCK;
    assert a - 1 == qa * INODES_PER_BLOCK + InodeOffset(a);
    assert b - 1 == qb * INODES_PER_BLOCK + InodeOffset(b);
  }

  /** The record `(INODE *)buf + k` of a block. */
  function ReadInode(b: Block, k: nat): (rec: InodeRec)
    requires k < INODES_PER_BLOCK
    ensures forall i | 0 <= i < INODE_SIZE :: rec[i] == b[k * INODE_SIZE + i]
  {
    b[k * INODE_SIZE .. k * INODE_SIZE + INODE_SIZE]
  }

  /** The block after `*((INODE *)buf + k) = rec`. */
  function WriteInode(b: Block, k: nat, rec: InodeRec): (b': Block)
    requires k < INODES_PER_BLOCK
    ensures ReadInode(b', k) == rec
  {
    b[..k * INODE_SIZE] + rec + b[k * INODE_SIZE + INODE_SIZE..]
  }

  /** Writing one record of a block leaves the other seven as they were. */
  lemma WriteInodeOthers(b: Block, k: nat, j: nat, rec: InodeRec)
    requires k < INODES_PER_BLOCK && j < INODES_PER_BLOCK && j != k
    ensures ReadInode(WriteInode(b, k, rec), j) == ReadInode(b, j)
  {
    var b' := WriteInode(b, k, rec);
    forall i | 0 <= i < INODE_SIZE
      ensures ReadInode(b', j)[i] == ReadInode(b, j)[i]
    {
      var at := j * INODE_SIZE + i;
      assert ReadInode(b', j)[i] == b'[at] && ReadInode(b, j)[i] == b[at];
      if j < k {
        assert at < k * INODE_SIZE;
      } else {
        assert k * INODE_SIZE + INODE_SIZE <= at;
      }
    }
  }

  /** The record of inode `ino` in a disk image whose inode table starts at block `base`. */
  function LoadInode(disk: seq<Block>, base: int, ino: int): (rec: InodeRec)
    requires ino >= 1 && 0 <= InodeBlock(ino, base) < |disk|
    ensures forall i | 0 <= i < INODE_SIZE :: rec[i] == disk[InodeBlock(ino, base)][InodeOffset(ino) * INODE_SIZE + i]
  {
    ReadInode(disk[InodeBlock(ino, base)], InodeOffset(ino))
  }

  /** The disk image after writing `rec` as record k of block `blk` (get_block, patch, put_block). */
  function StoreInode(disk: seq<Block>, blk: int, k: nat, rec: InodeRec): (disk': seq<Block>)
    requires 0 <= blk < |disk| && k < INODES_PER_BLOCK
    ensures |disk'| == |disk|
    ensures ReadInode(disk'[blk], k) == rec
    ensures forall j | 0 <= j < INODES_PER_BLOCK && j != k :: ReadInode(disk'[blk], j) == ReadInode(disk[blk], j)
    ensures forall j | 0 <= j < |disk| && j != blk :: disk'[j] == disk[j]
  {
    disk[blk := WriteInode(disk[blk], k, rec)]
  }

  /**
   * Storing inode `ino` at the location the inode table assigns it and loading it
   * back yields the stored record, and every other inode keeps its record.
   */
  lemma LoadAfterStore(disk: seq<Block>, base: int, ino: int, rec: InodeRec, other: int)
    requires ino >= 1 && 0 <= InodeBlock(ino, base) < |disk|
    requires other >= 1 && 0 <= InodeBlock(other, base) < |disk|
    ensures var disk' := StoreInode(disk, InodeBlock(ino, base), InodeOffset(ino), rec);
            LoadInode(disk', base, ino) == rec &&
            (other != ino ==> LoadInode(disk', base, other) == LoadInode(disk, base, other))
  {
    if other != ino && InodeBlock(other, base) == InodeBlock(ino, base) {
      InodeLocationDetermines(ino, other, base);
      WriteInodeOthers(disk[InodeBlock(ino, base)], InodeOffset(ino), InodeOffset(other), rec);
    }
  }
}

=== FILE: resolve.dfy ===
/**
 * path2inode: walk a pathname component by component from the root or the current
 * directory, searching each directory's first data block for the next name and
 * moving the held reference from the directory to the entry found.
 */
module Resolve {

  import opened Wrappers
  import opened Disk
  import opened DirBlock
  import opened PathTokens
  import opened Cache

  /**
   * Where path2inode stops. `Found` is the non-null pointer it returns. The source
   * returns null on the two error exits, `NotADirectory` and `NotFound`, which here
   * record the component reached and the slot still held (the source keeps that
   * reference and does not release it). `CacheExhausted` is where iget's eviction
   * scan would run off the cache list. `Undefined` is where the model stops without
   * saying what the source does: a directory block outside the disk image, a
   * record reached before the match that runs past the block or, not being the
   * match, has a zero rec_len (there the source reads past its buffer or loops
   * forever), an inode number beyond ninodes (which the source passes to iget), or
   * a write-back block outside the image. It records the slot held at that point.
   */
  datatype Outcome =
    | Found(slot: nat)
    | NotADirectory(component: nat, held: nat)
    | NotFound(component: nat, held: nat)
    | CacheExhausted(component: nat)
    | Undefined(component: nat, held: nat)
  {
    /** The slot held where the walk stops; None where iget found no slot. */
    function Kept(): Option<nat>
    {
      match this
      case Found(slot) => Some(slot)
      case NotADirectory(_, held) => Some(held)
      case NotFound(_, held) => Some(held)
      case CacheExhausted(_) => None
      case Undefined(_, held) => Some(held)
    }
  }

  /** The cache's pool, free list, cache list and disk image at one moment. */
  datatype State = State(pool: seq<Minode>, free: seq<nat>, cache: seq<nat>, disk: seq<Block>)

  /** The state the cache is in now. */
  ghost function Now(c: InodeCache): State
    reads c, c.pool
  {
    State(c.pool[..], c.freeList, c.cacheList, c.disk)
  }

  /**
   * One move of path2inode from state `s`: iput of slot `mip`, then iget(dev, ino),
   * ending in `s'` with result `r`. iput leaves the slot Released and, when it
   * writes back, stores the record at WriteBackBlock; iget then Acquires from that
   * pool and disk with both lists as they were, reading the inode table of the disk
   * iput left.
   */
  ghost predicate Moves(c: InodeCache, s: State, mip: nat, dev: int, ino: int, s': State, r: Option<nat>)
  {
    && mip < |s.pool| && mip < |c.iblockAddr|
    && InPool(s.free, |s.pool|) && InPool(s.cache, |s.pool|)
    && 1 <= ino && 0 <= InodeBlock(ino, c.iblk) < |s.disk|
    && (var m := s.pool[mip];
        && (WritesBack(m) ==> m.ino >= 1 && 0 <= WriteBackBlock(c.iblockAddr[mip], m.ino) < |s.disk|)
        && (var diskMid :=
              if WritesBack(m) then StoreInode(s.disk, WriteBackBlock(c.iblockAddr[mip], m.ino), InodeOffset(m.ino), m.inode)
              else s.disk;
            && s'.disk == diskMid
            && Acquires(s.pool[mip := Released(m)], s.free, s.cache, s'.pool, s'.free, s'.cache,
                        LoadInode(diskMid, c.iblk, ino), dev, ino, r)))
  }

  /**
   * One resolved component: the state of the cache when the round began, the slot
   * held then (whose record is the directory searched), and the nonzero inode number
   * search returned.
   */
  datatype Step = Step(pre: State, slot: nat, ino: nat)

  /** search found the nonzero inode number `st.ino` for `name` in the record of the slot held. */
  predicate Resolved(st: Step, name: string)
  {
    && st.slot < |st.pre.pool|
    && IsDir(st.pre.pool[st.slot].inode) && Searchable(st.pre.disk, st.pre.pool[st.slot].inode, name)
    && 1 <= st.ino && st.ino == Search(st.pre.disk, st.pre.pool[st.slot].inode, name)
  }

  /** The slot step `st` holds is the one holding, on `dev`, the inode step `prev` found. */
  predicate Chained(prev: Step, st: Step, dev: int)
  {
    st.slot < |st.pre.pool| && st.pre.pool[st.slot].dev == dev && st.pre.pool[st.slot].ino == prev.ino
  }

  /**
   * Every step of `trail` resolved the component of `names` at the same position,
   * and each step after the first holds the inode the one before it found.
   */
  ghost predicate Walked(trail: seq<Step>, names: seq<string>, dev: int)
    decreases |trail|
  {
    && |trail| <= |names|
    && (|trail| > 0 ==>
          && Walked(trail[..|trail| - 1], names, dev)
          && Resolved(trail[|trail| - 1], names[|trail| - 1])
          && (|trail| > 1 ==> Chained(trail[|trail| - 2], trail[|trail| - 1], dev)))
  }

  /**
   * Each step of `trail` after the first began in the state, and with the slot,
   * that the move after the step before it led to.
   */
  ghost predicate Moved(c: InodeCache, trail: seq<Step>, dev: int)
    decreases |trail|
  {
    |trail| > 1 ==>
      && Moved(c, trail[..|trail| - 1], dev)
      && EndsAt(c, trail[..|trail| - 1], dev, trail[|trail| - 1].pre, Some(trail[|trail| - 1].slot))
  }

  /** State `s` is where the move after the last step of `trail` leads, with iget's result `r`. */
  ghost predicate EndsAt(c: InodeCache, trail: seq<Step>, dev: int, s: State, r: Option<nat>)
  {
    && |trail| > 0
    && (var last := trail[|trail| - 1]; Moves(c, last.pre, last.slot, dev, last.ino, s, r))
  }

  /** The cache is now where the move after the last step of `trail` leads, with iget's result `r`. */
  ghost predicate Ends(c: InodeCache, trail: seq<Step>, dev: int, r: Option<nat>)
    reads c, c.pool
  {
    EndsAt(c, trail, dev, Now(c), r)
  }

  /**
   * A round that resolves `step` in the state the last move led to, from the slot
   * it acquired, extends the walk; when it then moves on to `s'`, the longer walk
   * ends at `s'`.
   */
  lemma WalkOn(c: InodeCache, trail: seq<Step>, step: Step, names: seq<string>, dev: int, s': State, r: Option<nat>)
    requires Walked(trail, names, dev) && Moved(c, trail, dev)
    requires |trail| < |names| && Resolved(step, names[|trail|])
    requires |trail| > 0 ==> Chained(trail[|trail| - 1], step, dev) && EndsAt(c, trail, dev, step.pre, Some(step.slot))
    requires Moves(c, step.pre, step.slot, dev, step.ino, s', r)
    ensures Walked(trail + [step], names, dev) && Moved(c, trail + [step], dev)
    ensures EndsAt(c, trail + [step], dev, s', r)
  {
    assert (trail + [step])[..|trail|] == trail;
  }

  /** Every prefix of a walk is a walk. */
  lemma {:induction false} WalkedPrefix(trail: seq<Step>, names: seq<string>, dev: int, j: nat)
    requires Walked(trail, names, dev) && j <= |trail|
    ensures Walked(trail[..j], names, dev)
    decreases |trail|
  {
    if j < |trail| {
      var init := trail[..|trail| - 1];
      WalkedPrefix(init, names, dev, j);
      assert init[..j] == trail[..j];
    } else {
      assert trail[..j] == trail;
    }
  }

  /** Walked, position by position: step k resolved component k. */
  lemma WalkedAt(trail: seq<Step>, names: seq<string>, dev: int, k: nat)
    requires Walked(trail, names, dev) && k < |trail|
    ensures k < |names| && Resolved(trail[k], names[k])
  {
    WalkedPrefix(trail, names, dev, k + 1);
    var pre := trail[..k + 1];
    assert pre[k] == trail[k];
  }

  /** Walked, position by position: step k > 0 holds the inode step k - 1 found. */
  lemma ChainedAt(trail: seq<Step>, names: seq<string>, dev: int, k: nat)
    requires Walked(trail, names, dev) && 0 < k < |trail|
    ensures Chained(trail[k - 1], trail[k], dev)
  {
    WalkedPrefix(trail, names, dev, k + 1);
    var pre := trail[..k + 1];
    assert pre[k] == trail[k] && pre[k - 1] == trail[k - 1];
  }

  /**
   * Moved, position by position: step k > 0 began in the state, and holds the
   * slot, that releasing step k - 1's slot and acquiring the inode it found led to.
   */
  lemma {:induction false} MovedAt(c: InodeCache, trail: seq<Step>, dev: int, k: nat)
    requires Moved(c, trail, dev) && 0 < k < |trail|
    ensures Moves(c, trail[k - 1].pre, trail[k - 1].slot, dev, trail[k - 1].ino, trail[k].pre, Some(trail[k].slot))
    decreases |trail|
  {
    var init := trail[..|trail| - 1];
    if k < |trail| - 1 {
      MovedAt(c, init, dev, k);
      assert init[k] == trail[k] && init[k - 1] == trail[k - 1];
    } else {
      assert init[|init| - 1] == trail[k - 1];
    }
  }

  /** The slot the walk starts from: root for an absolute pathname, else the cwd. */
  function Start(pathname: string, root: nat, cwd: nat): (s: nat)
    ensures s == root || s == cwd
    ensures |pathname| > 0 && pathname[0] == '/' ==> s == root
    ensures (|pathname| == 0 || pathname[0] != '/') ==> s == cwd
  {
    if |pathname| > 0 && pathname[0] == '/' then root else cwd
  }

  /**
   * One step of path2inode: release the directory held (iput) and take the entry
   * found in it (iget). `mid` and `diskMid` are the pool and the disk between the
   * two calls. The slot released need not have been taken by iget: on the first
   * step it is root or the cwd.
   */
  method Advance(c: InodeCache, mip: nat, dev: int, ino: int)
    returns (next: Option<nat>, ghost mid: seq<Minode>, ghost diskMid: seq<Block>)
    requires c.Valid() && mip < c.pool.Length
    requires 1 <= ino <= c.ninodes
    requires WritesBack(c.pool[mip]) ==>
               c.pool[mip].ino >= 1 && 0 <= WriteBackBlock(c.iblockAddr[mip], c.pool[mip].ino) < |c.disk|
    modifies c, c.pool
    ensures c.Valid()
    // iput: one holder fewer, and the record written back when the last one leaves
    ensures mid == old(c.pool[..])[mip := Released(old(c.pool[mip]))]
    ensures !WritesBack(old(c.pool[mip])) ==> diskMid == old(c.disk)
    ensures WritesBack(old(c.pool[mip])) ==>
              var m := old(c.pool[mip]);
              diskMid == StoreInode(old(c.disk), WriteBackBlock(c.iblockAddr[mip], m.ino), InodeOffset(m.ino), m.inode)
    // iget, from the pool iput left, with both lists as they were
    ensures c.disk == diskMid
    ensures Acquires(mid, old(c.freeList), old(c.cacheList), c.pool[..], c.freeList, c.cacheList,
                     LoadInode(diskMid, c.iblk, ino), dev, ino, next)
    ensures next.Some? ==>
              next.value < c.pool.Length && next.value in c.cacheList
              && c.pool[next.value].dev == dev && c.pool[next.value].ino == ino
    // the two together: the move path2inode makes
    ensures Moves(c, old(Now(c)), mip, dev, ino, Now(c), next)
  {
    InodeBlockMonotonic(ino, c.ninodes, c.iblk);
    c.Iput(Some(mip));
    mid, diskMid := c.pool[..], c.disk;
    next := c.Iget(dev, ino);
  }

  /**
   * What an outcome of the walk over `names` says about the cache, given the steps
   * taken: a slot found holds the last inode resolved; a slot held at a failure is
   * the start (first component) or the inode resolved before it; a directory held
   * at NotADirectory is not one, and one held at NotFound has no entry for the
   * component. At Undefined the directory held is one, and search cannot read its
   * block, or finds an inode number beyond ninodes, or iput's write-back would
   * leave the image (Beyond). At CacheExhausted the component was resolved, and is
   * the last step, but iget found no slot for it.
   */
  ghost predicate Reported(c: InodeCache, r: Outcome, names: seq<string>, trail: seq<Step>, start: nat, dev: int)
    reads c, c.pool
  {
    && (r.Found? ==>
          && r.slot < c.pool.Length
          && |trail| == |names|
          && (|trail| == 0 ==> r.slot == start)
          && (|trail| > 0 ==>
                && r.slot in c.cacheList
                && c.pool[r.slot].dev == dev && c.pool[r.slot].ino == trail[|trail| - 1].ino))
    && (r.NotADirectory? || r.NotFound? || r.Undefined? ==>
          && r.component < |names|
          && |trail| == r.component
          && r.held < c.pool.Length
          && (r.component == 0 ==> r.held == start)
          && (r.component > 0 ==>
                && r.held in c.cacheList
                && c.pool[r.held].dev == dev && c.pool[r.held].ino == trail[r.component - 1].ino)
          && (r.NotADirectory? ==> !IsDir(c.pool[r.held].inode))
          && (r.NotFound? ==>
                && IsDir(c.pool[r.held].inode)
                && Searchable(c.disk, c.pool[r.held].inode, names[r.component])
                && Search(c.disk, c.pool[r.held].inode, names[r.component]) == 0)
          && (r.Undefined? ==> IsDir(c.pool[r.held].inode) && Beyond(c, r.held, names[r.component])))
    && (r.CacheExhausted? ==> r.component < |names| && |trail| == r.component + 1)
  }

  /**
   * Where the round for `name` in the directory held in `slot` leaves what the model
   * states: search cannot read the block, or it finds an inode number beyond
   * ninodes, or iput of the slot would write back outside the image.
   */
  predicate Beyond(c: InodeCache, slot: nat, name: string)
    reads c, c.pool
  {
    && slot < c.pool.Length && slot < |c.iblockAddr|
    && (var m := c.pool[slot];
        || !Searchable(c.disk, m.inode, name)
        || (var ino := Search(c.disk, m.inode, name);
            && ino != 0
            && (|| ino > c.ninodes
                || (WritesBack(m) && !(m.ino >= 1 && 0 <= WriteBackBlock(c.iblockAddr[slot], m.ino) < |c.disk|)))))
  }

  /** The slot the walk holds after resolving the components recorded in `trail`. */
  ghost predicate Holding(c: InodeCache, mip: nat, trail: seq<Step>, start: nat, dev: int)
    reads c, c.pool
  {
    && mip < c.pool.Length
    && (|trail| == 0 ==> mip == start)
    && (|trail| > 0 ==> mip in c.cacheList && c.pool[mip].dev == dev && c.pool[mip].ino == trail[|trail| - 1].ino)
  }

  /**
   * One round of path2inode's loop, for the component names[i]: check that
   * the slot held is a directory, search it, and move to the entry found. `stop`
   * is the outcome where the walk ends in this round; `step` records the round.
   */
  method Visit(c: InodeCache, mip: nat, names: seq<string>, i: nat, ghost trail: seq<Step>, start: nat, dev: int)
    returns (stop: Option<Outcome>, next: nat, ghost step: Step)
    requires c.Valid() && i == |trail| < |names|
    requires Holding(c, mip, trail, start, dev)
    modifies c, c.pool
    ensures c.Valid()
    ensures step.pre == old(Now(c)) && step.slot == mip
    // The two error exits, and the stops before iput, change nothing.
    ensures stop.Some? && !stop.value.CacheExhausted? ==>
              unchanged(c, c.pool) && Reported(c, stop.value, names, trail, start, dev)
    ensures stop.Some? && !stop.value.CacheExhausted? ==> stop.value.Kept() == Some(mip)
    // Otherwise the entry is resolved and the move to it made, whether or not iget finds a slot.
    ensures stop.None? || stop.value.CacheExhausted? ==>
              && Resolved(step, names[i])
              && Moves(c, step.pre, mip, dev, step.ino, Now(c), if stop.None? then Some(next) else None)
    ensures stop.Some? && stop.value.CacheExhausted? ==> Reported(c, stop.value, names, trail + [step], start, dev)
    ensures stop.None? ==> Holding(c, next, trail + [step], start, dev)
  {
    next := mip;
    var held := c.pool[mip];
    var dir := held.inode;
    step := Step(Now(c), mip, 0);
    if !IsDir(dir) {
      return Some(NotADirectory(i, mip)), next, step;
    }
    if !Searchable(c.disk, dir, names[i]) {
      return Some(Undefined(i, mip)), next, step;
    }
    var ino := Search(c.disk, dir, names[i]);
    if ino == 0 {
      return Some(NotFound(i, mip)), next, step;
    }
    step := Step(Now(c), mip, ino);
    if ino > c.ninodes || (WritesBack(held) && !(held.ino >= 1 && 0 <= WriteBackBlock(c.iblockAddr[mip], held.ino) < |c.disk|)) {
      return Some(Undefined(i, mip)), next, step;
    }
    var got, _, _ := Advance(c, mip, dev, ino);
    if got.None? {
      return Some(CacheExhausted(i)), next, step;
    }
    return None, got.value, step;
  }

  /**
   * Where the walk stands before the round for component |trail|: the steps taken
   * so far form a walk from `start` in state `s0`, the slot held is `mip`, and the
   * cache is in `s0` when no step was taken, else where the last move led.
   */
  ghost predicate Progress(c: InodeCache, names: seq<string>, trail: seq<Step>, start: nat, dev: int, s0: State, mip: nat)
    reads c, c.pool
  {
    && c.Valid() && |trail| <= |names|
    && Holding(c, mip, trail, start, dev)
    && Walked(trail, names, dev) && Moved(c, trail, dev)
    && (|trail| > 0 ==> trail[0].pre == s0 && trail[0].slot == start)
    && (|trail| == 0 ==> Now(c) == s0)
    && (|trail| > 0 ==> Ends(c, trail, dev, Some(mip)))
  }

  /**
   * Where the walk stands when it stops with `r`: the steps taken form a walk from
   * `start` in state `s0`, the outcome is reported, and the cache is in `s0` when
   * no step was taken, else where the last move led.
   */
  ghost predicate Stopped(c: InodeCache, r: Outcome, names: seq<string>, trail: seq<Step>, start: nat, dev: int, s0: State)
    reads c, c.pool
  {
    && c.Valid()
    && Walked(trail, names, dev) && Moved(c, trail, dev)
    && (|trail| > 0 ==> trail[0].pre == s0 && trail[0].slot == start)
    && Reported(c, r, names, trail, start, dev)
    && (|trail| == 0 ==> Now(c) == s0)
    && (|trail| > 0 ==> Ends(c, trail, dev, r.Kept()))
  }

  /** One round of the loop, with the walk's bookkeeping: it either goes on from `next` or stops. */
  method Round(c: InodeCache, mip: nat, names: seq<string>, i: nat, ghost trail: seq<Step>, start: nat, dev: int, ghost s0: State)
    returns (stop: Option<Outcome>, next: nat, ghost trail': seq<Step>)
    requires i == |trail| < |names| && Progress(c, names, trail, start, dev, s0, mip)
    modifies c, c.pool
    ensures stop.None? ==> |trail'| == |trail| + 1 && Progress(c, names, trail', start, dev, s0, next)
    ensures stop.Some? ==> Stopped(c, stop.value, names, trail', start, dev, s0)
  {
    ghost var here := Now(c);
    ghost var step;
    stop, next, step := Visit(c, mip, names, i, trail, start, dev);
    trail' := trail;
    if stop.Some? {
      if stop.value.CacheExhausted? {
        WalkOn(c, trail, step, names, dev, Now(c), None);
        trail' := trail + [step];
      } else {
        assert Now(c) == here;
      }
      return;
    }
    WalkOn(c, trail, step, names, dev, Now(c), Some(next));
    trail' := trail + [step];
  }

  /**
   * The loop of path2inode over the components `names`, starting from slot `start`.
   */
  method Walk(c: InodeCache, names: seq<string>, start: nat, dev: int)
    returns (r: Outcome, ghost trail: seq<Step>)
    requires c.Valid() && start < c.pool.Length
    modifies c, c.pool
    ensures c.Valid()
    ensures Walked(trail, names, dev) && Moved(c, trail, dev)
    ensures |trail| > 0 ==> trail[0].pre == old(Now(c)) && trail[0].slot == start
    ensures Reported(c, r, names, trail, start, dev)
    ensures names == [] ==> r == Found(start)
    // With no component resolved nothing changes; otherwise the cache is where the
    // move after the last component resolved leads.
    ensures |trail| == 0 ==> Now(c) == old(Now(c))
    ensures |trail| > 0 ==> Ends(c, trail, dev, r.Kept())
  {
    var mip := start;
    ghost var s0 := Now(c);
    trail := [];
    var i := 0;
    while i < |names|
      invariant i == |trail| <= |names|
      invariant Progress(c, names, trail, start, dev, s0, mip)
    {
      var stop, next;
      stop, next, trail := Round(c, mip, names, i, trail, start, dev, s0);
      if stop.Some? {
        return stop.value, trail;
      }
      mip := next;
      i := i + 1;
    }
    r := Found(mip);
  }

  /**
   * path2inode(pathname), with the running process's cwd and the mounted device
   * passed in. `names` is what tokenize leaves in the global name[] array; `trail`
   * records, per component resolved, the state of the cache, the slot held and the
   * inode number found in it.
   */
  method Path2Inode(c: InodeCache, pathname: string, root: nat, cwd: nat, dev: int)
    returns (r: Outcome, names: seq<string>, ghost trail: seq<Step>)
    requires c.Valid() && root < c.pool.Length && cwd < c.pool.Length
    requires |pathname| < LINE_MAX && |Components(pathname)| < NAMES_MAX
    modifies c, c.pool
    ensures c.Valid()
    ensures names == Components(pathname)
    // Each component resolved was looked up with search in the directory held: the
    // first in the start directory as the cache stood, each later one in the slot
    // the move after the component before it acquired.
    ensures Walked(trail, names, dev) && Moved(c, trail, dev)
    ensures |trail| > 0 ==> trail[0].pre == old(Now(c)) && trail[0].slot == Start(pathname, root, cwd)
    ensures Reported(c, r, names, trail, Start(pathname, root, cwd), dev)
    // A pathname without components resolves to where it starts.
    ensures names == [] ==> r == Found(Start(pathname, root, cwd))
    // Nothing changes until a component is resolved; after that the cache is where
    // the move after the last component resolved leads.
    ensures |trail| == 0 ==> Now(c) == old(Now(c))
    ensures |trail| > 0 ==> Ends(c, trail, dev, r.Kept())
  {
    var start := Start(pathname, root, cwd);
    var n;
    n, names := Tokenize(pathname);
    r, trail := Walk(c, names, start, dev);
  }
}

=== FILE: tokens.dfy ===
/**
 * tokenize: split a pathname on '/' into its non-empty components, as repeated
 * strtok(.., "/") calls do (runs of slashes, and leading or trailing slashes,
 * produce no empty component).
 */
module PathTokens {

  /** gline[256]: the buffer the pathname is copied into. */
  const LINE_MAX: nat := 256
  /** name[64]: the token pointer array, which also holds the terminating 0 entry. */
  const NAMES_MAX: nat := 64

  /** Length of the leading run of `s` that holds no '/'. */
  function NameLength(s: string): (k: nat)
    ensures k <= |s|
    ensures forall i | 0 <= i < k :: s[i] != '/'
    ensures k < |s| ==> s[k] == '/'
  {
    if s == [] || s[0] == '/' then 0 else 1 + NameLength(s[1..])
  }

  /** The components of a pathname: its maximal non-empty runs without '/', in order. */
  function Components(s: string): (ts: seq<string>)
    ensures forall i | 0 <= i < |ts| :: ts[i] != [] && '/' !in ts[i]
    decreases |s|
  {
    if s == [] then []
    else if s[0] == '/' then Components(s[1..])
    else
      var k := NameLength(s);
      [s[..k]] + Components(s[k..])
  }

  /** The characters of s other than '/'. */
  function Unslashed(s: string): string
  {
    if s == [] then [] else (if s[0] == '/' then [] else [s[0]]) + Unslashed(s[1..])
  }

  /** The components one after another, with nothing between them. */
  function Concat(ts: seq<string>): string
  {
    if ts == [] then [] else ts[0] + Concat(ts[1..])
  }

  /** The components joined by single slashes. */
  function Join(ts: seq<string>): string
  {
    if ts == [] then [] else if |ts| == 1 then ts[0] else ts[0] + "/" + Join(ts[1..])
  }

  lemma {:induction false} UnslashedAppend(a: string, b: string)
    ensures Unslashed(a + b) == Unslashed(a) + Unslashed(b)
  {
    if a != [] {
      assert (a + b)[1..] == a[1..] + b;
      UnslashedAppend(a[1..], b);
    } else {
      assert a + b == b;
    }
  }

  lemma {:induction false} UnslashedName(w: string)
    requires '/' !in w
    ensures Unslashed(w) == w
  {
    if w != [] {
      UnslashedName(w[1..]);
    }
  }

  lemma {:induction false} NameLengthAppend(w: string, r: string)
    requires '/' !in w
    ensures NameLength(w + r) == |w| + NameLength(r)
  {
    if w != [] {
      assert (w + r)[1..] == w[1..] + r;
      NameLengthAppend(w[1..], r);
    } else {
      assert w + r == r;
    }
  }

  /** A slash-free name followed by the end or a '/' is a whole component. */
  lemma ComponentsAfterName(w: string, r: string)
    requires w != [] && '/' !in w
    requires r == [] || r[0] == '/'
    ensures Components(w + r) == [w] + Components(r)
  {
    NameLengthAppend(w, r);
    assert (w + r)[..|w|] == w && (w + r)[|w|..] == r;
  }

  /** Nothing but the slashes is dropped: the components hold every other character, in order. */
  lemma {:induction false} ComponentsKeepCharacters(s: string)
    ensures Concat(Components(s)) == Unslashed(s)
    decreases |s|
  {
    if s != [] {
      if s[0] == '/' {
        ComponentsKeepCharacters(s[1..]);
      } else {
        var k := NameLength(s);
        var ts := Components(s);
        ComponentsKeepCharacters(s[k..]);
        assert ts[1..] == Components(s[k..]);
        assert s == s[..k] + s[k..];
        UnslashedAppend(s[..k], s[k..]);
        UnslashedName(s[..k]);
      }
    }
  }

  /** A pathname has no components exactly when it is empty or all slashes. */
  lemma {:induction false} NoComponents(s: string)
    ensures Components(s) == [] <==> forall i | 0 <= i < |s| :: s[i] == '/'
    decreases |s|
  {
    if s != [] && s[0] == '/' {
      NoComponents(s[1..]);
      assert forall i | 1 <= i < |s| :: s[i] == s[1..][i - 1];
    }
  }

  /** Joining non-empty, slash-free names with '/' and splitting again gives the names back. */
  lemma {:induction false} SplitJoin(ts: seq<string>)
    requires forall i | 0 <= i < |ts| :: ts[i] != [] && '/' !in ts[i]
    ensures Components(Join(ts)) == ts
  {
    if |ts| == 1 {
      ComponentsAfterName(ts[0], []);
      assert ts[0] + [] == ts[0];
    } else if |ts| > 1 {
      var rest := "/" + Join(ts[1..]);
      SplitJoin(ts[1..]);
      ComponentsAfterName(ts[0], rest);
      assert Join(ts) == ts[0] + rest;
      assert rest[1..] == Join(ts[1..]);
    }
  }

  /** The three properties of NameLength determine it. */
  lemma {:induction false} NameLengthIs(s: string, k: nat)
    requires k <= |s|
    requires forall m | 0 <= m < k :: s[m] != '/'
    requires k < |s| ==> s[k] == '/'
    ensures NameLength(s) == k
  {
    if k > 0 {
      NameLengthIs(s[1..], k - 1);
    }
  }

  /**
   * tokenize(pathname): returns n and fills name[0..n) with the components.
   * The source copies the pathname into gline[256] and the tokens into name[64]
   * (with name[n] = 0), hence the two bounds. Each round does what one strtok call
   * does: skip the slashes, then take the run up to the next slash or the end.
   */
  method Tokenize(pathname: string) returns (n: nat, name: seq<string>)
    requires |pathname| < LINE_MAX
    requires |Components(pathname)| < NAMES_MAX
    ensures n == |name| && name == Components(pathname)
  {
    name := [];
    var i := 0;
    while i < |pathname|
      invariant 0 <= i <= |pathname|
      invariant name + Components(pathname[i..]) == Components(pathname)
    {
      var s := pathname[i..];
      if pathname[i] == '/' {
        assert s[1..] == pathname[i + 1..];
        i := i + 1;
      } else {
        var j := i + 1;
        while j < |pathname| && pathname[j] != '/'
          invariant i < j <= |pathname|
          invariant forall m | i <= m < j :: pathname[m] != '/'
        {
          j := j + 1;
        }
        NameLengthIs(s, j - i);
        assert s[..j - i] == pathname[i..j] && s[j - i..] == pathname[j..];
        assert name + ([pathname[i..j]] + Components(pathname[j..])) == (name + [pathname[i..j]]) + Components(pathname[j..]);
        name := name + [pathname[i..j]];
        i := j;
      }
    }
    assert name + [] == name;
    n := |name|;
  }
}

=== FILE: wrappers.dfy ===
/** The optional value used where the source returns a possibly-null pointer. */
module Wrappers {

  datatype Option<+T> = None | Some(value: T)
}
